=== FILE: README.md ===
# Vader process supervision, modelled in Dafny

Vader starts and watches an external OS process through a *control directory* `.control-<uuid>` inside the process's home directory. The supervisor writes a shell script there, `run.sh`. The script starts the command in the background and records three things in the control directory: the command's pid, the pid of the wrapping sub-shell and the exit status.

From those files the supervisor can:
- ask `ps` whether the process is alive;
- stop it, first with `kill` and then, if that fails, with `kill -9`;
- read its exit value;
- re-attach to it later from the home directory alone.

A Java flavour builds the command line from an executable, VM options, a jar or main class, and program arguments. A separate cached tailer serves the last lines of a growing output file.

The model keeps the sequential logic and turns the operating system into parameters:
- A file is a sequence of lines.
- A directory is the list of its entry names.
- Every run of `ps` is answered by an oracle: the k-th run made by one call gets `probe(k)`.
- A polled file is given as what each successive look finds.
- The deadline of `stop` is the number of wait rounds that fit before it.

Java objects become immutable datatypes, and every mutator returns the new state. A null reference is `None`. A thrown exception is an `Err`/`Fail` that carries its kind.

Modules, one per source class plus shared pieces:
- `Outcomes` (outcomes.dfy): the option, result and outcome types and the exception kinds.
- `Text` (text.dfy): the parts of `String`, `BufferedReader.readLine`, `Integer.parseInt` and `String.valueOf` that the code relies on.
- `CachedFileTailer` (tailer.dfy).
- `AbstractManagedProcess` (managed.dfy).
- `LaunchScript` (script.dfy): the `writeScript` part of `UnixProcess` and the control-file names.
- `UnixProcess` (unix.dfy).
- `JavaProcessImpl` (java.dfy).
- `ManagedProcessFactoryImpl` (factory.dfy).

## Model

Source paths are relative to the repository root.

| member | source | states |
|---|---|---|
| CachedFileTailer.NewTailer | src/main/java/com/hellblazer/process/CachedFileTailer.java:38-52 | construction succeeds iff `maxLines >= 0` and the period is positive, and `IllegalArgumentException` is thrown otherwise; a new tailer starts expired with an empty cache |
| CachedFileTailer.ReadReversedIsReversedTail | src/main/java/com/hellblazer/process/CachedFileTailer.java:105-110 | the backward read loop collects the last `maxLines` lines of the file, newest first |
| CachedFileTailer.LoadLinesKeepsTail | src/main/java/com/hellblazer/process/CachedFileTailer.java:103-113 | after a refresh the cache is exactly the last `min(k, maxLines)` lines of a k-line file, in file order |
| CachedFileTailer.GetTailLines | src/main/java/com/hellblazer/process/CachedFileTailer.java:61-100 | `n < 1` gives an empty result and changes nothing; the cache is reloaded, and the expired flag cleared, exactly when the flag is set and the write lock is free; the result has length `min(n, maxLines, cache size)` and is a suffix of the cache; the bound `|cache| <= maxLines` is kept |
| CachedFileTailer.TailIsSuffixOfCache | src/main/java/com/hellblazer/process/CachedFileTailer.java:81-94 | the result is the last `min(n, maxLines)` lines of the cache |
| CachedFileTailer.TailClamped | src/main/java/com/hellblazer/process/CachedFileTailer.java:67-69 | asking for more than `maxLines` lines returns what asking for `maxLines` returns |
| CachedFileTailer.FirstCallLoads | src/main/java/com/hellblazer/process/CachedFileTailer.java:72-79 | because the flag starts set, the first call with `n >= 1` and a free lock reads the file and clears the flag |
| CachedFileTailer.FreshCacheIgnoresFile | src/main/java/com/hellblazer/process/CachedFileTailer.java:72-79 | while the flag is clear the file's contents make no difference to the answer or to the state |
| CachedFileTailer.ExpiredCacheSeesFile | src/main/java/com/hellblazer/process/CachedFileTailer.java:54-59 | after the timer sets the flag, the next call with a free lock serves the file as it is now |
| CachedFileTailer.EmptyFileEmptyTail | src/test/java/com/hellblazer/process/CachedFileTailerTest.java:102-108 | an empty file gives an empty result for every `n` |
| CachedFileTailer.ShortFileServedWhole | src/test/java/com/hellblazer/process/CachedFileTailerTest.java:90-100 | a file shorter than the bound is served whole and in order |
| CachedFileTailer.ChangingFileScenario | src/test/java/com/hellblazer/process/CachedFileTailerTest.java:110-136 | with 10 lines and a bound of 6, lines 5..10 are served, also for requests of 100 and 3 (8..10); after 20 more lines are appended the old lines are still served until the timer fires, and then lines 25..30 |
| AbstractManagedProcess.ControlDirectoryFileName | src/main/java/com/hellblazer/process/impl/AbstractManagedProcess.java:223-225 | the control directory name is `.control-` followed by the id |
| AbstractManagedProcess.InControlDirectory | src/main/java/com/hellblazer/process/impl/AbstractManagedProcess.java:304-306 | a control file path is the control directory name, the separator, then the file name |
| AbstractManagedProcess.SplitInControlDirectory | src/main/java/com/hellblazer/process/impl/AbstractManagedProcess.java:304-306 | a control file path can be split back into the id and the file name |
| AbstractManagedProcess.InControlDirectoryInjective | src/main/java/com/hellblazer/process/impl/AbstractManagedProcess.java:304-306 | different ids or different file names never give the same path |
| AbstractManagedProcess.ControlEntries | src/main/java/com/hellblazer/process/impl/AbstractManagedProcess.java:57-62 | the filter keeps exactly the entries whose names start with `.control-` |
| AbstractManagedProcess.GetIdFrom | src/main/java/com/hellblazer/process/impl/AbstractManagedProcess.java:53-87 | the result is null for a missing or non-directory home, for zero or several control entries, and for a single entry that is the bare prefix; otherwise it is the non-empty suffix of the only control entry |
| AbstractManagedProcess.GetIdFromRoundTrip | src/main/java/com/hellblazer/process/impl/AbstractManagedProcess.java:53-87 | a home yields `id` if and only if its only control entry is the control directory named after `id` |
| AbstractManagedProcess.SetCommand | src/main/java/com/hellblazer/process/impl/AbstractManagedProcess.java:414-431 | a null command is stored as an empty list; any other list is stored as given; nothing else changes |
| AbstractManagedProcess.AddCommand | src/main/java/com/hellblazer/process/impl/AbstractManagedProcess.java:140-145 | the piece is appended after the existing command, and a null command counts as empty |
| AbstractManagedProcess.SetDirectory | src/main/java/com/hellblazer/process/impl/AbstractManagedProcess.java:433-436 | only the directory changes |
| AbstractManagedProcess.SetDirectoryTextAsWritten | src/main/java/com/hellblazer/process/impl/AbstractManagedProcess.java:438-444 | the string overload as written: on null the directory is cleared and then `NullPointerException` is thrown; otherwise the directory is set and the call returns |
| AbstractManagedProcess.SetDirectoryText | src/main/java/com/hellblazer/process/impl/AbstractManagedProcess.java:438-444 | the string overload as intended: null clears the directory, as the `File` overload does |
| AbstractManagedProcess.SetDirectoryTextNullThrows | src/main/java/com/hellblazer/process/impl/AbstractManagedProcess.java:438-444 | the two versions always leave the same state; the version as written throws exactly on null, where the intended one returns |
| AbstractManagedProcess.SetEnvironment | src/main/java/com/hellblazer/process/impl/AbstractManagedProcess.java:446-452 | a null environment is stored as an empty map; nothing else changes |
| AbstractManagedProcess.NullSettersStoreEmpty | src/main/java/com/hellblazer/process/impl/AbstractManagedProcess.java:414-452 | setting null cannot be told apart from setting an empty command or an empty environment |
| AbstractManagedProcess.IsSameConfiguration | src/main/java/com/hellblazer/process/impl/AbstractManagedProcess.java:308-332 | true iff command, directory and environment are all equal, where null equals only null |
| AbstractManagedProcess.Clone | src/main/java/com/hellblazer/process/impl/AbstractManagedProcess.java:147-165 | the clone has the fresh id, is not terminated, and has the same command, directory and environment |
| AbstractManagedProcess.ConfigureFrom | src/main/java/com/hellblazer/process/impl/AbstractManagedProcess.java:167-173 | the three configuration fields are taken from the other process; the id and the terminated flag stay |
| AbstractManagedProcess.CopiesAreSameConfiguration | src/main/java/com/hellblazer/process/impl/AbstractManagedProcess.java:147-173 | a clone, or a process configured from another, has the same configuration as its source, seen from either side |
| AbstractManagedProcess.PollStreams | src/main/java/com/hellblazer/process/impl/AbstractManagedProcess.java:487-500 | the start-up poll succeeds iff both output files exist at one of the checks 0..151 (the counter check `counter++ > 150`) |
| AbstractManagedProcess.Start | src/main/java/com/hellblazer/process/impl/AbstractManagedProcess.java:455-501 | nothing happens when the process is already active; otherwise `terminated` is reset; a null or empty command becomes empty and the call returns; a null directory throws `IllegalStateException`; otherwise the call succeeds iff the output files appear within the poll bound, and throws `IOException` if not |
| LaunchScript.Quote | src/main/java/com/hellblazer/process/impl/UnixProcess.java:493-494 | a part is written as a quote, the part, a quote and a space |
| LaunchScript.QuotePartsConcat | src/main/java/com/hellblazer/process/impl/UnixProcess.java:492-495 | parts are written in argument order |
| LaunchScript.UnquoteQuoteParts | src/main/java/com/hellblazer/process/impl/UnixProcess.java:492-495 | when no part contains a quote, the written parts can be read back exactly |
| LaunchScript.QuotingIsAmbiguous | src/main/java/com/hellblazer/process/impl/UnixProcess.java:492-495 | nothing is escaped: the one part `a" "b` is written exactly like the two parts `a`, `b` |
| LaunchScript.LaunchLineCarriesCommand | src/main/java/com/hellblazer/process/impl/UnixProcess.java:490-502 | the launch line `(nohup <parts> < std.in & x=$!; echo $x > pid; wait $x; echo $? > exit.value)&` gives back the command |
| LaunchScript.ScriptReadsAsLines | src/main/java/com/hellblazer/process/impl/UnixProcess.java:474-509 | the script is exactly five lines: the shebang, the two redirections, the launch line and the wrapper-pid line |
| LaunchScript.ScriptCarriesCommand | src/main/java/com/hellblazer/process/impl/UnixProcess.java:474-509 | the fourth line of the written script gives back the command |
| UnixProcess.ProcessStatus | src/main/java/com/hellblazer/process/impl/UnixProcess.java:148-220 | pid -1 has no status; when `ps` cannot start, or exits with a status other than 0 or 1, or exits 0 with no output, the call throws `IllegalStateException`; exit 1 means no status; an interrupted wait reports an empty status |
| UnixProcess.ProcessStatusReadsReport | src/main/java/com/hellblazer/process/impl/UnixProcess.java:187-215 | given ps output with the `STAT` header, the call skips the header and returns the state; exit 1 means no process; exit 0 with only the header also means no status |
| UnixProcess.ProcessStatusWithoutHeader | src/main/java/com/hellblazer/process/impl/UnixProcess.java:206-219 | when the first line is not the header, that line is the state |
| UnixProcess.ActiveStateIsFirstLetter | src/main/java/com/hellblazer/process/impl/UnixProcess.java:41-42 | the prefix loop over `U`, `I`, `R`, `S` is true iff the state's first letter is one of them |
| UnixProcess.IsActive | src/main/java/com/hellblazer/process/impl/UnixProcess.java:243-266 | false for pid -1 or no status; ps errors propagate; otherwise true iff the state starts with an active letter |
| UnixProcess.IsActiveOfReport | src/main/java/com/hellblazer/process/impl/UnixProcess.java:243-266 | given a ps report, the process is active exactly when the reported state starts with U, I, R or S |
| UnixProcess.IsDead | src/main/java/com/hellblazer/process/impl/UnixProcess.java:271-276 | once terminated, the answer is yes and ps is not asked; otherwise the flag is set exactly when ps reports no status; the answer equals the flag; nothing else changes |
| UnixProcess.IsDeadMonotonic | src/main/java/com/hellblazer/process/impl/UnixProcess.java:271-276 | the terminated flag is never cleared |
| UnixProcess.Kill | src/main/java/com/hellblazer/process/impl/UnixProcess.java:288-308 | a kill is sent iff there is a pid, and it is the single run `kill <pid>` |
| UnixProcess.KillWith | src/main/java/com/hellblazer/process/impl/UnixProcess.java:310-330 | a kill is sent iff there is a pid, and it is the single run `kill -<signal> <pid>` with the given signal |
| UnixProcess.PsCommandNamesPid | src/main/java/com/hellblazer/process/impl/UnixProcess.java:152-154 | the ps run is `ps -o state -p <pid>` and its last argument reads back as that pid, so distinct pids give distinct runs |
| UnixProcess.KillCommandReadsBack | src/main/java/com/hellblazer/process/impl/UnixProcess.java:293-315 | the argument vector of a kill, plain or numbered, reads back as the pid and signal it was built from |
| UnixProcess.KillRunsNamePid | src/main/java/com/hellblazer/process/impl/UnixProcess.java:288-316 | every kill that `kill()` or `kill(signal)` sends names the process's own pid, and none is sent without one; read back, `kill()` sends the plain termination signal and `kill(signal)` exactly `signal` |
| UnixProcess.GraceLoop | src/main/java/com/hellblazer/process/impl/UnixProcess.java:418-425 | the wait loop ends at the first ps run that finds the process not alive, or after the rounds that fit before the deadline |
| UnixProcess.Stop | src/main/java/com/hellblazer/process/impl/UnixProcess.java:405-439 | a terminated process is left alone with no signal and no ps run; the call returns iff the process ends up terminated; only the terminated flag changes |
| UnixProcess.StopEscalation | src/main/java/com/hellblazer/process/impl/UnixProcess.java:405-439 | the signals, the outcome and the number of ps runs follow from the first run that finds the process gone. Dead at run 0: no signal. Dead during the wait or at the check after it: a plain kill only. Otherwise a plain kill, then `kill -9`. If no run finds it gone the call throws `CannotStopProcessException`; a ps failure propagates |
| UnixProcess.StopSignalsInOrder | src/main/java/com/hellblazer/process/impl/UnixProcess.java:405-439 | the signals sent are none, kill, or kill then kill -9; a process without a pid gets no signal and the call returns |
| UnixProcess.PollPidFile | src/main/java/com/hellblazer/process/impl/UnixProcess.java:356-365 | the wait ends at the first look that finds a non-empty file, and after at most 1000 looks |
| UnixProcess.ReadPidFrom | src/main/java/com/hellblazer/process/impl/UnixProcess.java:366-386 | the read after the wait: a missing file or one with no line is an illegal state; otherwise the result is the number on the first line, and a line that is not a number is a `NumberFormatException` |
| UnixProcess.ReadPid | src/main/java/com/hellblazer/process/impl/UnixProcess.java:355-387 | the file is read at the look where the wait stopped: the call throws `IllegalStateException` exactly when that look finds it missing or empty; otherwise the pid is the number on its first line, fitting in an `int`, and a line that is not a number throws `NumberFormatException` |
| UnixProcess.ReadPidNeverWritten | src/main/java/com/hellblazer/process/impl/UnixProcess.java:356-379 | a pid file still missing, or still empty, after the 1000 looks is an illegal state |
| UnixProcess.ReadPidOfEcho | src/main/java/com/hellblazer/process/impl/UnixProcess.java:355-387 | a pid the script echoes before the looks run out is the pid read back |
| UnixProcess.GetExitValue | src/main/java/com/hellblazer/process/impl/UnixProcess.java:85-122 | pid -1 or terminated gives the cached value; a missing file gives `IllegalThreadStateException`; otherwise the call succeeds iff the first line parses, the value is that number and is cached, and otherwise it throws `IllegalStateException` |
| UnixProcess.ExitValueOfEcho | src/main/java/com/hellblazer/process/impl/UnixProcess.java:85-122 | the status the script echoes is the exit value, and once the process is terminated the cached value is returned whatever the file says |
| UnixProcess.NewExitValue | src/main/java/com/hellblazer/process/impl/UnixProcess.java:46-48 | a process that was never started reports -1 |
| UnixProcess.WaitWhileActive | src/main/java/com/hellblazer/process/impl/UnixProcess.java:450-453 | a ps failure ends the loop as an illegal state |
| UnixProcess.WaitWhileActiveStops | src/main/java/com/hellblazer/process/impl/UnixProcess.java:450-453 | the loop stops at the first ps run that finds the wrapper inactive, every earlier run having found it active; with no answer, every run allowed found it active |
| UnixProcess.WaitWhileActiveFails | src/main/java/com/hellblazer/process/impl/UnixProcess.java:450-453 | a failed end comes from a ps run that failed, every earlier run having found the wrapper active |
| UnixProcess.WaitWhileActiveFuel | src/main/java/com/hellblazer/process/impl/UnixProcess.java:450-453 | once the loop has ended, allowing more rounds does not change the result |
| UnixProcess.WaitFor | src/main/java/com/hellblazer/process/impl/UnixProcess.java:441-453 | when terminated, or with no wrapper pid, the result is `getExitValue()` at once. Otherwise the call waits: with no result, every ps run allowed found the wrapper active; a result follows a first run that did not find it active, and is `getExitValue()` if that run found it inactive, or an illegal state if that run failed |
| UnixProcess.WaitForFuel | src/main/java/com/hellblazer/process/impl/UnixProcess.java:441-453 | waiting longer does not change a result already reached |
| UnixProcess.ReadPids | src/main/java/com/hellblazer/process/impl/UnixProcess.java:395-396 | start succeeds iff both pid files read; the wrapper pid and the pid are then stored; a failed first read leaves the process as it was, and a failed second read leaves it holding only the new wrapper pid, the error being the one that read raised |
| UnixProcess.StartAsWritten | src/main/java/com/hellblazer/process/impl/UnixProcess.java:389-400 | an active process is left as it is; a failed ps run in either `isActive()` (this class's or the base's) propagates its `IllegalStateException` with the process unchanged; after the base start returns normally, whether it found the process active or launched or had nothing to run, the pid files are read |
| UnixProcess.Start | src/main/java/com/hellblazer/process/impl/UnixProcess.java:389-400 | `start` as intended: an active process is left as it is. Id, directory and environment never change. A failed ps run in either `isActive()` propagates with the process unchanged. When only the base finds the process active, the pid files are read. After the base start otherwise: a failure propagates; an empty command returns without reading pid files; a launch reads both pids |
| UnixProcess.StartRecordsPids | src/main/java/com/hellblazer/process/impl/UnixProcess.java:389-400 | a launched process ends up not terminated and holding the pids the script recorded |
| UnixProcess.EmptyCommandStart | src/main/java/com/hellblazer/process/impl/UnixProcess.java:389-400 | with an empty command, start as written throws once the wrapper pid file fails to appear; as intended it returns |
| UnixProcess.Restart | src/main/java/com/hellblazer/process/impl/AbstractManagedProcess.java:402-411 | the stop is `stop()` with the default timeout of 10 seconds, whatever wait is passed; the start runs iff the stop returned, on the stopped process and with the ps runs that follow the stop's; the id is kept |
| UnixProcess.RestartIgnoresWait | src/main/java/com/hellblazer/process/impl/AbstractManagedProcess.java:407-411 | any two wait arguments give the same restart |
| UnixProcess.RestartRelaunches | src/main/java/com/hellblazer/process/impl/AbstractManagedProcess.java:402-411 | when the stop returns and ps then finds the process inactive, the restart sends at most kill then kill -9 and relaunches the command, recording the new pids |
| UnixProcess.Destroy | src/main/java/com/hellblazer/process/impl/AbstractManagedProcess.java:175-180 | the stop is `stop()` with the default timeout; the home directory is removed iff the stop returned |
| UnixProcess.DestroyTerminated | src/main/java/com/hellblazer/process/impl/AbstractManagedProcess.java:175-180 | destroying a process already known to be terminated sends no signal, runs no ps and removes its home directory |
| UnixProcess.AcquireFromHome | src/main/java/com/hellblazer/process/impl/UnixProcess.java:58-67 | the home becomes the directory. A wrapper pid file that is missing or empty (an illegal state) leaves both pids unknown. A pid file that is missing or empty after the wrapper pid was read leaves only the wrapper pid set. A `NumberFormatException` from either file propagates. Two readable files set both pids |
| UnixProcess.AcquireAfterLaunch | src/main/java/com/hellblazer/process/impl/UnixProcess.java:58-67 | re-attaching to a launched home recovers both pids the script echoed |
| UnixProcess.Clone | src/main/java/com/hellblazer/process/impl/AbstractManagedProcess.java:147-165 | the clone is a new Unix process with no pids, a -1 exit value and the same configuration |
| JavaProcessImpl.GetExecution | src/main/java/com/hellblazer/process/impl/JavaProcessImpl.java:225-235 | `-jar` and the absolute jar path when a jar is set, otherwise the main class |
| JavaProcessImpl.GetCommand | src/main/java/com/hellblazer/process/impl/JavaProcessImpl.java:193-206 | the command is the absolute executable if set, then the VM options, then the execution target, then the arguments, each block in place and in order |
| JavaProcessImpl.CommandLayout | src/main/java/com/hellblazer/process/impl/JavaProcessImpl.java:193-235 | with no executable set and no `-jar` among the VM options, the command reads back as the VM options, then either `-jar <jar>` or the class, then the arguments |
| JavaProcessImpl.SetJarFile | src/main/java/com/hellblazer/process/impl/JavaProcessImpl.java:532-538 | a non-null jar clears the main class, so at most one of the two is set |
| JavaProcessImpl.SetJarFileText | src/main/java/com/hellblazer/process/impl/JavaProcessImpl.java:540-547 | the string overload behaves like the `File` overload, null included |
| JavaProcessImpl.SetJavaClass | src/main/java/com/hellblazer/process/impl/JavaProcessImpl.java:549-555 | a non-null class clears the jar, so at most one of the two is set |
| JavaProcessImpl.LastTargetWins | src/main/java/com/hellblazer/process/impl/JavaProcessImpl.java:532-555 | whichever of jar and class was set last is what runs |
| JavaProcessImpl.SetJavaExecutable | src/main/java/com/hellblazer/process/impl/JavaProcessImpl.java:557-569 | only the executable changes |
| JavaProcessImpl.SetArguments | src/main/java/com/hellblazer/process/impl/JavaProcessImpl.java:485-503 | null is stored as an empty list; nothing else changes |
| JavaProcessImpl.SetVmOptions | src/main/java/com/hellblazer/process/impl/JavaProcessImpl.java:571-589 | null is stored as an empty list; nothing else changes |
| JavaProcessImpl.AddArgument | src/main/java/com/hellblazer/process/impl/JavaProcessImpl.java:66-71 | appends one argument after the old list, and a null list counts as empty |
| JavaProcessImpl.AddArguments | src/main/java/com/hellblazer/process/impl/JavaProcessImpl.java:76-84 | appends all arguments in order after the old list |
| JavaProcessImpl.AddVmOption | src/main/java/com/hellblazer/process/impl/JavaProcessImpl.java:96-101 | appends one option after the old list, and a null list counts as empty |
| JavaProcessImpl.AddVmOptions | src/main/java/com/hellblazer/process/impl/JavaProcessImpl.java:106-114 | appends all options in order after the old list |
| JavaProcessImpl.AddArgumentsOneByOne | src/main/java/com/hellblazer/process/impl/JavaProcessImpl.java:66-84 | adding a non-empty array at once is the same as adding its elements one at a time |
| JavaProcessImpl.SetThenAdd | src/main/java/com/hellblazer/process/impl/JavaProcessImpl.java:76-114 | setting a list and then adding to it is the same as setting the concatenation |
| JavaProcessImpl.SetCommand | src/main/java/com/hellblazer/process/impl/JavaProcessImpl.java:505-515 | always throws `UnsupportedOperationException` |
| JavaProcessImpl.AddCommand | src/main/java/com/hellblazer/process/impl/JavaProcessImpl.java:86-90 | always throws `UnsupportedOperationException` |
| JavaProcessImpl.Start | src/main/java/com/hellblazer/process/impl/JavaProcessImpl.java:597-608 | null VM options and arguments become empty lists, and nothing else in the Java configuration changes; the Unix process is given `getCommand()` as its command and then started, so the resulting process and outcome are exactly those of the Unix `start` on that process, on every path (already active, failed ps, failed poll, failed pid read) |
| JavaProcessImpl.StartRunsCommand | src/main/java/com/hellblazer/process/impl/JavaProcessImpl.java:597-608 | the Unix process is given `getCommand()` and launched, and ends up holding the recorded pids |
| JavaProcessImpl.StartUnaffectedByEmptyCommandCase | src/main/java/com/hellblazer/process/impl/JavaProcessImpl.java:597-608 | a Java command is never empty, so the Unix start as written and as intended agree here |
| JavaProcessImpl.CopyList | src/main/java/com/hellblazer/process/impl/JavaProcessImpl.java:183-186 | the list getters copy the list and throw `NullPointerException` on a null list |
| JavaProcessImpl.SameListAsWritten | src/main/java/com/hellblazer/process/impl/JavaProcessImpl.java:431-437 | one list comparison as written: a null list on the other side throws, otherwise the lists are compared |
| JavaProcessImpl.IsSameConfigurationAsWritten | src/main/java/com/hellblazer/process/impl/JavaProcessImpl.java:424-467 | false for a non-Java process; throws when the other's arguments are null; throws only `NullPointerException` |
| JavaProcessImpl.IsSameConfiguration | src/main/java/com/hellblazer/process/impl/JavaProcessImpl.java:424-467 | false for a non-Java process; otherwise true iff arguments, jar, class, executable and VM options are all equal, where null equals only null |
| JavaProcessImpl.SameConfigurationNullLists | src/main/java/com/hellblazer/process/impl/JavaProcessImpl.java:424-467 | the two versions agree when the other process has both lists; for two new processes, as written throws and as intended answers true |
| JavaProcessImpl.Clone | src/main/java/com/hellblazer/process/impl/JavaProcessImpl.java:116-134 | the Java configuration is the same, around a clone of the Unix process |
| JavaProcessImpl.ConfigureFromAsWritten | src/main/java/com/hellblazer/process/impl/JavaProcessImpl.java:136-151 | a non-Java source throws `UnsupportedOperationException`; the call returns iff the source has both lists, and otherwise throws `NullPointerException` with the executable, and any arguments already copied, taken over; when the source's arguments are null the arguments keep their old value |
| JavaProcessImpl.ConfigureFrom | src/main/java/com/hellblazer/process/impl/JavaProcessImpl.java:136-151 | from a Java source, all five Java fields, the directory and the environment are taken over; the rest of the Unix process (id, command, pids, exit value) is unchanged; a non-Java source is refused |
| JavaProcessImpl.CopiesAreSameConfiguration | src/main/java/com/hellblazer/process/impl/JavaProcessImpl.java:116-151 | a clone, or a process configured from another, has the same Java configuration as its source; the version as written agrees when the lists are set |
| ManagedProcessFactoryImpl.SupportedIffNamed | src/main/java/com/hellblazer/process/impl/ManagedProcessFactoryImpl.java:31-42 | supported iff the lower-cased OS name contains `mac`, `linux`, `unix` or `solaris` |
| ManagedProcessFactoryImpl.LinuxSupported | src/main/java/com/hellblazer/process/impl/ManagedProcessFactoryImpl.java:31-42 | `Linux` is supported |
| ManagedProcessFactoryImpl.WindowsUnsupported | src/main/java/com/hellblazer/process/impl/ManagedProcessFactoryImpl.java:31-42 | `Windows 10` is not supported |
| ManagedProcessFactoryImpl.Create | src/main/java/com/hellblazer/process/impl/ManagedProcessFactoryImpl.java:62-75 | creation gives a new Unix process with the requested id, or throws `IllegalStateException` |
| ManagedProcessFactoryImpl.CreateOnSupportedPlatforms | src/main/java/com/hellblazer/process/impl/ManagedProcessFactoryImpl.java:62-75 | creation succeeds iff the platform is supported |
| ManagedProcessFactoryImpl.AcquireFrom | src/main/java/com/hellblazer/process/impl/ManagedProcessFactoryImpl.java:44-55 | throws `IllegalStateException` when no id is found. The acquired process has the id found in the home, and the home as its directory. With an id, an unsupported platform throws `IllegalStateException`, and otherwise the result is exactly `acquireFromHome` on a new Unix process with that id, so its pid reads and its `NumberFormatException` pass through |
| ManagedProcessFactoryImpl.AcquireStartedHome | src/main/java/com/hellblazer/process/impl/ManagedProcessFactoryImpl.java:44-55 | a home left by a started process is re-acquired with its id, its directory and both recorded pids |
| ManagedProcessFactoryImpl.CreateJavaProcess | src/main/java/com/hellblazer/process/impl/ManagedProcessFactoryImpl.java:80-83 | on a supported platform, a new Java process with every field null, around a new Unix process |

## Left out

- Process launching: `primitiveExecute`, `execute` and the `ProcessBuilder` runs of `ps` and `kill` are not modelled; they are OS I/O. Each ps run is an oracle answer, and kill is recorded as the signal sent.
- Filesystem effects are not modelled: `initializeDirectory`, `remove`, the creation of `std.in` and the writing of `run.sh`. The I/O exceptions they raise are left out too. `UnixProcess.Destroy` reports the directory it removes.
- Sleeping, the wall clock and thread interrupts are not modelled. An interrupted `readPid` returns -1, an interrupted `stop` returns early, and an interrupted `waitFor` throws; none of these paths is modelled.
- The ten-round settle loop of `waitFor(int)`, which only sleeps, is not modelled.
- UnixProcess.WaitFor: the unbounded wait loop is given a number of rounds; `None` means the process was still active after that many.
- UnixProcess.Stop: the deadline of `waitForSeconds * 1000` ms is the number of wait rounds (`ticks`) whose deadline check passes.
- UnixProcess.Restart: `ticksFor` converts seconds to rounds.
- UnixProcess.Restart: built on the corrected `UnixProcess.Start`. As written, restarting a process with an empty command throws `IllegalStateException` after the 1000 looks for the wrapper pid file (see Findings).
- UnixProcess.Kill: the `IllegalStateException` thrown when the `kill` process cannot be started is not modelled, so `Stop` never fails because of a kill. An interrupted wait for `kill` is not modelled either.
- UnixProcess.KillWith: the `IllegalStateException` thrown when the `kill -<signal>` process cannot be started is not modelled.
- UnixProcess.ProcessStatus: an `IOException` while reading ps output is not modelled.
- UnixProcess.GetExitValue: an `IOException` while reading the exit file is not modelled.
- UnixProcess.ReadPid: an `IOException` while reading the pid file is not modelled.
- AbstractManagedProcess.GetIdFrom: the UUID is kept as its text. The malformed-UUID `IllegalArgumentException` from `UUID.fromString` is not modelled.
- A listing failure is treated like a missing home.
- AbstractManagedProcess.Start: `ready(k)` says whether both output files exist at the k-th check; the file system behind it is not modelled.
- CachedFileTailer.GetTailLines: one caller at a time. The timer thread is the `Expire` step, and the outcome of `tryLock` is a parameter.
- `ReversedLinesFileReader` is not modelled; the file is its sequence of lines. A missing file and the reader's I/O errors are not modelled.
- CachedFileTailer.NewTailer: the conversion of the freshness interval to milliseconds is not modelled; the period is given in milliseconds.
- JavaProcessImpl.GetExecution: with neither a jar nor a class, Java puts a null element in the command. The script writes it as the text `null`, and the model uses that text.
- JavaProcessImpl.AbsolutePath: paths are resolved against a given working directory without the normalisation `java.io.File` does.
- JavaProcessImpl.AddArguments: the `NullPointerException` from a null array is not modelled; the array is a sequence.
- JavaProcessImpl.AddVmOptions: the `NullPointerException` from a null array is not modelled; the array is a sequence.
- The Java assertion in `getExecution` and the one in the constructor are not modelled; they are disabled by default.
- The methods of `JavaProcessImpl` that only delegate to the Unix process are covered by the Unix members themselves: `stop`, `restart`, `waitFor`, `getExitValue`, `isActive` and the stream getters.
- The JMX connector methods, logging, `toString`, `equals`/`hashCode` and serialization are not modelled.
- The shared command list in `clone` and `configureFrom` is not modelled: lists are values here, so aliasing between processes does not arise.
- UUID generation is not modelled; the fresh id is a parameter.
- The unicode case mapping of `toLowerCase` is not modelled; lower-casing is ASCII only.
- `Integer.parseInt` accepts ASCII digits only.

## Findings

| source | as written | input that shows it | evidently intended | confidence | as-written member | corrected member |
|---|---|---|---|---|---|---|
| src/main/java/com/hellblazer/process/impl/AbstractManagedProcess.java:438-444 | the null branch has no `return`, so the method goes on to `new File(null)` | `setDirectory((String) null)` clears the directory and then throws `NullPointerException` | clear the directory, as the `File` overload does | not executed; high | AbstractManagedProcess.SetDirectoryTextAsWritten | AbstractManagedProcess.SetDirectoryText |
| src/main/java/com/hellblazer/process/impl/JavaProcessImpl.java:424-467 | `getArguments`/`getVmOptions` copy the list with `new ArrayList<>(list)`, which throws on null, so the null-equals-null branches can never answer true | two new Java processes: `isSameConfiguration` throws `NullPointerException` | compare the fields with null equal to null | not executed; high | JavaProcessImpl.IsSameConfigurationAsWritten | JavaProcessImpl.IsSameConfiguration |
| src/main/java/com/hellblazer/process/impl/JavaProcessImpl.java:136-151 | the same getters make `configureFrom` throw when the source's lists are null, after it has already taken over the executable | configuring from a new Java process | take the lists over as they are | not executed; high | JavaProcessImpl.ConfigureFromAsWritten | JavaProcessImpl.ConfigureFrom |
| src/main/java/com/hellblazer/process/impl/UnixProcess.java:389-400 | after the base `start` returns because the command is empty and nothing was launched, the pid files are still read | a Unix process with an empty command and a home directory: `start` throws `IllegalStateException` after 1000 looks | return as the base start does | not executed; medium | UnixProcess.StartAsWritten | UnixProcess.Start |

=== FILE: factory.dfy ===
/** The factory: decides from the host's OS name whether supervision is
    supported, creates Unix processes, and re-attaches to a process from its
    home directory.

The OS name (the `os.name` system property) and the fresh UUID are
parameters.
 */
module ManagedProcessFactoryImpl {
  import opened Outcomes
  import opened Text
  import M = AbstractManagedProcess
  import U = UnixProcess
  import J = JavaProcessImpl

  const SupportedPlatforms: seq<string> := ["mac", "linux", "unix", "solaris"]

  /** The factory's view of the OS: its name in lower case. */
  function OperatingSystem(osName: string): string {
    Lower(osName)
  }

  /** The loop of `isPlatformSupported`: some platform name occurs in `os`. */
  predicate ContainsAny(os: string, platforms: seq<string>)
    decreases |platforms|
  {
    |platforms| > 0 && (Contains(os, platforms[0]) || ContainsAny(os, platforms[1..]))
  }

  /** `isPlatformSupported`. */
  predicate IsPlatformSupported(osName: string) {
    ContainsAny(OperatingSystem(osName), SupportedPlatforms)
  }

  /** A platform is supported exactly when its lower-cased name mentions one
      of the four supported families. */
  lemma {:induction false} SupportedIffNamed(osName: string)
    ensures var os := OperatingSystem(osName);
            IsPlatformSupported(osName) <==>
              Contains(os, "mac") || Contains(os, "linux") || Contains(os, "unix") || Contains(os, "solaris")
  {
    var p := SupportedPlatforms;
    assert p[1..] == ["linux", "unix", "solaris"] && p[1..][1..] == ["unix", "solaris"];
    assert p[1..][1..][1..] == ["solaris"] && p[1..][1..][1..][1..] == [];
  }

  /** `create(UUID)`: a Unix process under `id` on a supported platform. */
  function Create(osName: string, id: M.Id): (r: Result<U.Unix>)
    ensures r.Err? ==> r.error == IllegalState
    ensures r.Ok? ==> r.value == U.New(id)
  {
    var os := OperatingSystem(osName);
    if Contains(os, "mac") then Ok(U.New(id))
    else if Contains(os, "linux") then Ok(U.New(id))
    else if Contains(os, "unix") then Ok(U.New(id))
    else if Contains(os, "solaris") then Ok(U.New(id))
    else Err(IllegalState)
  }

  /** `create` and `isPlatformSupported` agree: creation succeeds exactly on
      the supported platforms. */
  lemma CreateOnSupportedPlatforms(osName: string, id: M.Id)
    ensures Create(osName, id).Ok? <==> IsPlatformSupported(osName)
  {
    SupportedIffNamed(osName);
  }

  /** A Linux host is supported. */
  lemma LinuxSupported()
    ensures IsPlatformSupported("Linux")
  {
    var os := OperatingSystem("Linux");
    assert os[..5] == "linux";
    assert StartsWith(os, "linux");
    SupportedIffNamed("Linux");
  }

  /** A Windows host is not: its lower-cased name has no 'm', 'l' or 'u'. */
  lemma WindowsUnsupported()
    ensures !IsPlatformSupported("Windows 10")
  {
    var w := OperatingSystem("Windows 10");
    assert 'm' !in w && 'l' !in w && 'u' !in w;
    ContainsNeedsChar(w, "mac", 'm');
    ContainsNeedsChar(w, "linux", 'l');
    ContainsNeedsChar(w, "unix", 'u');
    ContainsNeedsChar(w, "solaris", 'l');
    SupportedIffNamed("Windows 10");
  }

  /** `acquireFrom`: the id is read from the home directory's control entry,
      a process is created for it and takes over the home directory and the
      recorded pids. */
  function AcquireFrom(osName: string, home: M.Home, homePath: M.Path,
                       wrapperView: U.FileView, pidView: U.FileView): (r: Result<U.Unix>)
    ensures M.GetIdFrom(home).None? ==> r == Err(IllegalState)
    ensures r.Ok? ==> M.GetIdFrom(home) == Some(r.value.base.id)
    ensures r.Ok? ==> r.value.base.directory == Some(homePath) && r.value.base.command == Some([])
    ensures r.Ok? ==> IsPlatformSupported(osName)
    ensures M.GetIdFrom(home).Some? && IsPlatformSupported(osName) ==>
              r == U.AcquireFromHome(U.New(M.GetIdFrom(home).value), homePath, wrapperView, pidView)
    ensures M.GetIdFrom(home).Some? && !IsPlatformSupported(osName) ==> r == Err(IllegalState)
  {
    match M.GetIdFrom(home)
    case None => Err(IllegalState)
    case Some(id) =>
      CreateOnSupportedPlatforms(osName, id);
      match Create(osName, id)
      case Err(e) => Err(e)
      case Ok(p) => U.AcquireFromHome(p, homePath, wrapperView, pidView)
  }

  /** Re-attaching to a home directory written by a started process: its
      single control directory names the id, and the pid files hold the pids
      the launch script echoed. */
  lemma AcquireStartedHome(osName: string, home: M.Home, homePath: M.Path, id: M.Id,
                           wrapperView: U.FileView, pidView: U.FileView, wrapper: int, pid: int)
    requires IsPlatformSupported(osName) && id != ""
    requires home.Directory? && M.ControlEntries(home.entries) == [M.ControlDirectoryFileName(id)]
    requires MinInt <= wrapper <= MaxInt && MinInt <= pid <= MaxInt
    requires forall j :: wrapperView(j) == Some(U.EchoText(wrapper))
    requires forall j :: pidView(j) == Some(U.EchoText(pid))
    ensures AcquireFrom(osName, home, homePath, wrapperView, pidView)
         == Ok(U.New(id).(base := M.New(id).(directory := Some(homePath)), wrapperPid := wrapper, pid := pid))
  {
    M.GetIdFromRoundTrip(home, id);
    CreateOnSupportedPlatforms(osName, id);
    U.AcquireAfterLaunch(U.New(id), homePath, wrapperView, pidView, wrapper, pid);
  }

  /** `createJavaProcess`: a Java process around a newly created process. */
  function CreateJavaProcess(osName: string, id: M.Id): (r: Result<J.Java>)
    ensures r.Ok? <==> IsPlatformSupported(osName)
    ensures r.Err? ==> r.error == IllegalState
    ensures r.Ok? ==> r.value == J.New(U.New(id))
  {
    CreateOnSupportedPlatforms(osName, id);
    match Create(osName, id)
    case Err(e) => Err(e)
    case Ok(p) => Ok(J.New(p))
  }
}

=== FILE: java.dfy ===
/** A Java program run as a supervised Unix process: the command line is
    assembled from the executable, the VM options, either a jar or a main
    class, and the program arguments, and handed to the Unix process at start.

Paths are resolved against the host's working directory `cwd`, given as a
parameter.
 */
module JavaProcessImpl {
  import opened Outcomes
  import opened Text
  import M = AbstractManagedProcess
  import U = UnixProcess

  /** The Java configuration; `None` stands for a null field. */
  datatype Java = Java(
    arguments: Option<seq<string>>,
    jarFile: Option<M.Path>,
    javaClass: Option<string>,
    javaExecutable: Option<M.Path>,
    vmOptions: Option<seq<string>>,
    process: U.Unix)

  /** The five fields `isSameConfiguration` compares. */
  datatype JavaConfig = JavaConfig(
    arguments: Option<seq<string>>,
    jarFile: Option<M.Path>,
    javaClass: Option<string>,
    javaExecutable: Option<M.Path>,
    vmOptions: Option<seq<string>>)

  function ConfigOf(j: Java): JavaConfig {
    JavaConfig(j.arguments, j.jarFile, j.javaClass, j.javaExecutable, j.vmOptions)
  }

  /** A new Java process around `process`, every field null. */
  function New(process: U.Unix): Java {
    Java(None, None, None, None, None, process)
  }

  /** `File.getAbsolutePath` on a Unix host: an absolute path is kept, the
      empty path is the working directory, anything else is resolved
      against it. */
  function AbsolutePath(cwd: M.Path, path: M.Path): (r: M.Path)
    ensures StartsWith(path, [M.SeparatorChar]) ==> r == path
    ensures !StartsWith(path, [M.SeparatorChar]) && path != "" ==>
              StartsWith(r, cwd + [M.SeparatorChar]) && r[|cwd| + 1..] == path
  {
    if StartsWith(path, [M.SeparatorChar]) then path
    else if path == "" then cwd
    else cwd + [M.SeparatorChar] + path
  }

  /** What a null main class turns into once the command is written out. */
  const NullText: string := "null"

  /** At most one of the jar and the main class is set. */
  predicate Exclusive(j: Java) {
    !(j.jarFile.Some? && j.javaClass.Some?)
  }

  /** `getExecution`: `-jar <absolute jar>` when a jar is set, otherwise the
      main class. */
  function GetExecution(j: Java, cwd: M.Path): (r: seq<string>)
    ensures j.jarFile.Some? ==> r == ["-jar", AbsolutePath(cwd, j.jarFile.value)]
    ensures j.jarFile.None? ==> r == [j.javaClass.GetOr(NullText)]
    ensures 1 <= |r| <= 2
  {
    match j.jarFile
    case Some(jar) => ["-jar", AbsolutePath(cwd, jar)]
    case None => [j.javaClass.GetOr(NullText)]
  }

  /** `getCommand`: the executable if set, the VM options, the execution
      target, then the program arguments, each group in order. */
  function GetCommand(j: Java, cwd: M.Path): (r: seq<string>)
    ensures var e := if j.javaExecutable.Some? then 1 else 0;
            var vm := j.vmOptions.GetOr([]);
            var x := GetExecution(j, cwd);
            var args := j.arguments.GetOr([]);
            && |r| == e + |vm| + |x| + |args|
            && (j.javaExecutable.Some? ==> r[0] == AbsolutePath(cwd, j.javaExecutable.value))
            && r[e..e + |vm|] == vm
            && r[e + |vm|..e + |vm| + |x|] == x
            && r[e + |vm| + |x|..] == args
    ensures |r| >= 1
  {
    var exe := match j.javaExecutable case Some(p) => [AbsolutePath(cwd, p)] case None => [];
    exe + j.vmOptions.GetOr([]) + GetExecution(j, cwd) + j.arguments.GetOr([])
  }

  /** Reading a command back: the VM options, target and arguments come out
      where `getCommand` put them, and a jar target is the only one carrying
      `-jar`. */
  lemma CommandLayout(j: Java, cwd: M.Path)
    requires j.javaExecutable.None? && j.vmOptions.Some? && j.arguments.Some?
    requires forall k :: 0 <= k < |j.vmOptions.value| ==> j.vmOptions.value[k] != "-jar"
    ensures var r := GetCommand(j, cwd);
            var n := |j.vmOptions.value|;
            && r[..n] == j.vmOptions.value
            && ((r[n] == "-jar" && j.javaClass.GetOr(NullText) != "-jar") ==> j.jarFile.Some?)
            && (j.jarFile.Some? ==>
                  r[n] == "-jar" && r[n + 1] == AbsolutePath(cwd, j.jarFile.value) && r[n + 2..] == j.arguments.value)
            && (j.jarFile.None? ==> r[n] == j.javaClass.GetOr(NullText) && r[n + 1..] == j.arguments.value)
  {
  }

  /** `setJarFile(File)`: a jar clears the main class. */
  function SetJarFile(j: Java, jar: Option<M.Path>): (r: Java)
    ensures Exclusive(r) && r.jarFile == jar
    ensures jar.Some? ==> r.javaClass.None?
    ensures jar.None? ==> r.javaClass == j.javaClass
    ensures r == j.(jarFile := r.jarFile, javaClass := r.javaClass)
  {
    if jar.Some? then j.(javaClass := None, jarFile := jar) else j.(jarFile := jar)
  }

  /** `setJarFile(String)`: null only clears the jar. */
  function SetJarFileText(j: Java, jar: Option<string>): (r: Java)
    ensures r == SetJarFile(j, jar)
  {
    if jar.None? then j.(jarFile := None) else SetJarFile(j, jar)
  }

  /** `setJavaClass`: a main class clears the jar. */
  function SetJavaClass(j: Java, javaClass: Option<string>): (r: Java)
    ensures Exclusive(r) && r.javaClass == javaClass
    ensures javaClass.Some? ==> r.jarFile.None?
    ensures javaClass.None? ==> r.jarFile == j.jarFile
    ensures r == j.(jarFile := r.jarFile, javaClass := r.javaClass)
  {
    if javaClass.Some? then j.(jarFile := None, javaClass := javaClass) else j.(javaClass := javaClass)
  }

  /** The target is the one set last: a jar after a class runs the jar, a
      class after a jar runs the class. */
  lemma LastTargetWins(j: Java, cwd: M.Path, jar: M.Path, mainClass: string)
    ensures GetExecution(SetJarFile(SetJavaClass(j, Some(mainClass)), Some(jar)), cwd)
         == ["-jar", AbsolutePath(cwd, jar)]
    ensures GetExecution(SetJavaClass(SetJarFile(j, Some(jar)), Some(mainClass)), cwd) == [mainClass]
  {
  }

  /** `setJavaExecutable`, both overloads. */
  function SetJavaExecutable(j: Java, executable: Option<M.Path>): (r: Java)
    ensures r.javaExecutable == executable && r == j.(javaExecutable := executable)
  {
    j.(javaExecutable := executable)
  }

  /** `setArguments`: a copy of the list, null stored as empty. */
  function SetArguments(j: Java, arguments: Option<seq<string>>): (r: Java)
    ensures r.arguments == Some(arguments.GetOr([]))
    ensures r == j.(arguments := r.arguments)
  {
    j.(arguments := Some(arguments.GetOr([])))
  }

  /** `setVmOptions`: a copy of the list, null stored as empty. */
  function SetVmOptions(j: Java, vmOptions: Option<seq<string>>): (r: Java)
    ensures r.vmOptions == Some(vmOptions.GetOr([]))
    ensures r == j.(vmOptions := r.vmOptions)
  {
    j.(vmOptions := Some(vmOptions.GetOr([])))
  }

  /** `addArgument`: appends, creating the list if null. */
  function AddArgument(j: Java, argument: string): (r: Java)
    ensures r.arguments.Some? && |r.arguments.value| == |j.arguments.GetOr([])| + 1
    ensures r.arguments.value[..|r.arguments.value| - 1] == j.arguments.GetOr([])
    ensures r.arguments.value[|r.arguments.value| - 1] == argument
    ensures r == j.(arguments := r.arguments)
  {
    j.(arguments := Some(j.arguments.GetOr([]) + [argument]))
  }

  /** `addArguments`: appends all, creating the list if null. */
  function AddArguments(j: Java, more: seq<string>): (r: Java)
    ensures r.arguments.Some? && |r.arguments.value| == |j.arguments.GetOr([])| + |more|
    ensures r.arguments.value[..|j.arguments.GetOr([])|] == j.arguments.GetOr([])
    ensures r.arguments.value[|j.arguments.GetOr([])|..] == more
    ensures r == j.(arguments := r.arguments)
  {
    j.(arguments := Some(j.arguments.GetOr([]) + more))
  }

  /** `addVmOption`: appends, creating the list if null. */
  function AddVmOption(j: Java, option: string): (r: Java)
    ensures r.vmOptions.Some? && |r.vmOptions.value| == |j.vmOptions.GetOr([])| + 1
    ensures r.vmOptions.value[..|r.vmOptions.value| - 1] == j.vmOptions.GetOr([])
    ensures r.vmOptions.value[|r.vmOptions.value| - 1] == option
    ensures r == j.(vmOptions := r.vmOptions)
  {
    j.(vmOptions := Some(j.vmOptions.GetOr([]) + [option]))
  }

  /** `addVmOptions`: appends all, creating the list if null. */
  function AddVmOptions(j: Java, more: seq<string>): (r: Java)
    ensures r.vmOptions.Some? && |r.vmOptions.value| == |j.vmOptions.GetOr([])| + |more|
    ensures r.vmOptions.value[..|j.vmOptions.GetOr([])|] == j.vmOptions.GetOr([])
    ensures r.vmOptions.value[|j.vmOptions.GetOr([])|..] == more
    ensures r == j.(vmOptions := r.vmOptions)
  {
    j.(vmOptions := Some(j.vmOptions.GetOr([]) + more))
  }

  /** Adding one argument at a time. */
  function AddEachArgument(j: Java, more: seq<string>): Java
    decreases |more|
  {
    if |more| == 0 then j else AddEachArgument(AddArgument(j, more[0]), more[1..])
  }

  /** Adding a non-empty array at once is adding its elements one by one. */
  lemma {:induction false} AddArgumentsOneByOne(j: Java, more: seq<string>)
    requires more != []
    ensures AddArguments(j, more) == AddEachArgument(j, more)
    decreases |more|
  {
    var j1 := AddArgument(j, more[0]);
    assert AddEachArgument(j, more) == AddEachArgument(j1, more[1..]);
    if |more| > 1 {
      AddArgumentsOneByOne(j1, more[1..]);
      assert j.arguments.GetOr([]) + more == j1.arguments.GetOr([]) + more[1..];
    } else {
      assert more == [more[0]];
    }
  }

  /** Adding to a list set before appends to it: set, then add, is setting
      the concatenation. */
  lemma SetThenAdd(j: Java, args: seq<string>, more: seq<string>, opts: seq<string>, moreOpts: seq<string>)
    ensures AddArguments(SetArguments(j, Some(args)), more) == SetArguments(j, Some(args + more))
    ensures AddVmOptions(SetVmOptions(j, Some(opts)), moreOpts) == SetVmOptions(j, Some(opts + moreOpts))
  {
  }

  /** `setCommand` (both overloads) and `addCommand`: the command of a Java
      process is derived, so setting it directly is refused and nothing
      changes. */
  function SetCommand(j: Java, command: Option<seq<string>>): (r: Result<Java>)
    ensures r.Err? && r.error == UnsupportedOperation
  {
    Err(UnsupportedOperation)
  }

  function AddCommand(j: Java, piece: string): (r: Result<Java>)
    ensures r.Err? && r.error == UnsupportedOperation
  {
    Err(UnsupportedOperation)
  }

  /** The state after `start` and whether it returned or threw. */
  datatype JavaStarted = JavaStarted(java: Java, outcome: Outcome)

  /** `start`: null lists become empty, the command is set on the Unix
      process, and that process is started. */
  function Start(j: Java, cwd: M.Path, probe: U.Probe, ready: nat -> bool,
                 wrapperView: U.FileView, pidView: U.FileView): (r: JavaStarted)
    ensures r.java.vmOptions == Some(j.vmOptions.GetOr([]))
    ensures r.java.arguments == Some(j.arguments.GetOr([]))
    ensures ConfigOf(r.java) == ConfigOf(SetVmOptions(SetArguments(j, j.arguments), j.vmOptions))
    ensures r.java.process.base.id == j.process.base.id
    ensures r.java.process.base.command == Some(GetCommand(j, cwd))
    ensures var s := U.Start(j.process.(base := M.SetCommand(j.process.base, Some(GetCommand(j, cwd)))),
                             probe, ready, wrapperView, pidView);
            r.java.process == s.proc && r.outcome == s.outcome
  {
    var j1 := j.(vmOptions := Some(j.vmOptions.GetOr([])), arguments := Some(j.arguments.GetOr([])));
    var p := j.process.(base := M.SetCommand(j.process.base, Some(GetCommand(j1, cwd))));
    var s := U.Start(p, probe, ready, wrapperView, pidView);
    JavaStarted(j1.(process := s.proc), s.outcome)
  }

  /** A started Java process runs the command `getCommand` describes, and
      since that command is never empty the launch goes ahead: it ends with
      the recorded pids once the output files appear. */
  lemma StartRunsCommand(j: Java, cwd: M.Path, probe: U.Probe, ready: nat -> bool,
                         wrapperView: U.FileView, pidView: U.FileView, wrapper: int, pid: int)
    requires U.IsActive(j.process.pid, probe(0)) == Ok(false) && U.IsActive(j.process.pid, probe(1)) == Ok(false)
    requires j.process.base.directory.Some?
    requires exists k :: 0 <= k <= M.StartPollLimit + 1 && ready(k)
    requires MinInt <= wrapper <= MaxInt && MinInt <= pid <= MaxInt
    requires forall k :: wrapperView(k) == Some(U.EchoText(wrapper))
    requires forall k :: pidView(k) == Some(U.EchoText(pid))
    ensures var r := Start(j, cwd, probe, ready, wrapperView, pidView);
            && r.outcome == Pass
            && r.java.process.base.command == Some(GetCommand(j, cwd))
            && r.java.process.pid == pid && r.java.process.wrapperPid == wrapper
            && !r.java.process.base.terminated
  {
    var j1 := j.(vmOptions := Some(j.vmOptions.GetOr([])), arguments := Some(j.arguments.GetOr([])));
    assert GetCommand(j1, cwd) == GetCommand(j, cwd);
    var p := j.process.(base := M.SetCommand(j.process.base, Some(GetCommand(j1, cwd))));
    U.StartRecordsPids(p, probe, ready, wrapperView, pidView, wrapper, pid);
  }

  /** For a Java process the Unix `start` as written and as intended agree:
      the empty-command case never arises. */
  lemma StartUnaffectedByEmptyCommandCase(j: Java, cwd: M.Path, probe: U.Probe, ready: nat -> bool,
                                          wrapperView: U.FileView, pidView: U.FileView)
    ensures var j1 := j.(vmOptions := Some(j.vmOptions.GetOr([])), arguments := Some(j.arguments.GetOr([])));
            var p := j.process.(base := M.SetCommand(j.process.base, Some(GetCommand(j1, cwd))));
            U.StartAsWritten(p, probe, ready, wrapperView, pidView) == U.Start(p, probe, ready, wrapperView, pidView)
  {
  }

  /** Another process as `isSameConfiguration` and `configureFrom` see it. */
  datatype Other = NotJava | JavaLike(java: Java)

  /** `getArguments` and `getVmOptions` as written: a copy made with
      `new ArrayList<>(list)`, which throws on a null list. */
  function CopyList(list: Option<seq<string>>): (r: Result<seq<string>>)
    ensures r.Ok? <==> list.Some?
    ensures r.Ok? ==> r.value == list.value
    ensures r.Err? ==> r.error == NullPointer
  {
    match list
    case Some(l) => Ok(l)
    case None => Err(NullPointer)
  }

  /** One field of `isSameConfiguration`: null equals only null. */
  predicate SameField<T(==)>(mine: Option<T>, theirs: Option<T>) {
    if mine.None? then theirs.None? else mine == theirs
  }

  /** One list field as written: the other side's list is copied first, so a
      null there throws before the comparison. */
  function SameListAsWritten(mine: Option<seq<string>>, theirs: Option<seq<string>>): (r: Result<bool>)
    ensures theirs.None? ==> r == Err(NullPointer)
    ensures theirs.Some? ==> r == Ok(mine == theirs)
  {
    match CopyList(theirs)
    case Err(e) => Err(e)
    case Ok(copy) => if mine.None? then Ok(false) else Ok(mine.value == copy)
  }

  /** `isSameConfiguration` as written. */
  function IsSameConfigurationAsWritten(j: Java, other: Other): (r: Result<bool>)
    ensures other.NotJava? ==> r == Ok(false)
    ensures other.JavaLike? && other.java.arguments.None? ==> r == Err(NullPointer)
    ensures r.Err? ==> r.error == NullPointer
  {
    match other
    case NotJava => Ok(false)
    case JavaLike(o) =>
      match SameListAsWritten(j.arguments, o.arguments)
      case Err(e) => Err(e)
      case Ok(false) => Ok(false)
      case Ok(true) =>
        if !SameField(j.jarFile, o.jarFile) then Ok(false)
        else if !SameField(j.javaClass, o.javaClass) then Ok(false)
        else if !SameField(j.javaExecutable, o.javaExecutable) then Ok(false)
        else SameListAsWritten(j.vmOptions, o.vmOptions)
  }

  /** `isSameConfiguration` as its null branches intend: the five Java fields
      compared, null equal only to null; the Unix process is not compared. */
  function IsSameConfiguration(j: Java, other: Other): (r: bool)
    ensures r <==> other.JavaLike? && ConfigOf(j) == ConfigOf(other.java)
  {
    match other
    case NotJava => false
    case JavaLike(o) =>
      && SameField(j.arguments, o.arguments)
      && SameField(j.jarFile, o.jarFile)
      && SameField(j.javaClass, o.javaClass)
      && SameField(j.javaExecutable, o.javaExecutable)
      && SameField(j.vmOptions, o.vmOptions)
  }

  /** The two versions agree whenever the other process has both lists; two
      new Java processes, whose lists are null, make the version as written
      throw where the intended one answers true. */
  lemma SameConfigurationNullLists(j: Java, o: Java, p: U.Unix, q: U.Unix)
    ensures o.arguments.Some? && o.vmOptions.Some? ==>
              IsSameConfigurationAsWritten(j, JavaLike(o)) == Ok(IsSameConfiguration(j, JavaLike(o)))
    ensures IsSameConfigurationAsWritten(New(p), JavaLike(New(q))) == Err(NullPointer)
    ensures IsSameConfiguration(New(p), JavaLike(New(q)))
  {
  }

  /** `clone`: copies of the lists and the same jar, class and executable,
      around a clone of the Unix process under a fresh id. */
  function Clone(j: Java, freshId: M.Id): (r: Java)
    ensures ConfigOf(r) == ConfigOf(j)
    ensures r.process == U.Clone(j.process, freshId)
  {
    j.(process := U.Clone(j.process, freshId))
  }

  /** The state after `configureFrom` and whether it returned or threw. */
  datatype Configured = Configured(java: Java, outcome: Outcome)

  /** `configureFrom` as written: only Java processes are accepted; the
      executable is taken over first, then the argument and option copies
      (which throw on a null list), the target, and the directory and
      environment of the Unix process. */
  function ConfigureFromAsWritten(j: Java, other: Other): (r: Configured)
    ensures other.NotJava? ==> r == Configured(j, Fail(UnsupportedOperation))
    ensures other.JavaLike? ==> (r.outcome.Pass? <==> other.java.arguments.Some? && other.java.vmOptions.Some?)
    ensures r.outcome.Fail? ==> r.outcome.error == UnsupportedOperation || r.outcome.error == NullPointer
    ensures other.JavaLike? && r.outcome.Fail? ==>
              r.java == j.(javaExecutable := other.java.javaExecutable, arguments := r.java.arguments)
              && (other.java.arguments.Some? ==> r.java.arguments == other.java.arguments)
              && (other.java.arguments.None? ==> r.java.arguments == j.arguments)
  {
    match other
    case NotJava => Configured(j, Fail(UnsupportedOperation))
    case JavaLike(o) =>
      var j1 := j.(javaExecutable := o.javaExecutable);
      match CopyList(o.arguments)
      case Err(e) => Configured(j1, Fail(e))
      case Ok(args) =>
        var j2 := j1.(arguments := Some(args));
        match CopyList(o.vmOptions)
        case Err(e) => Configured(j2, Fail(e))
        case Ok(opts) => Configured(ConfigureRest(j2.(vmOptions := Some(opts)), o), Pass)
  }

  /** The tail of `configureFrom`: target, directory and environment. */
  function ConfigureRest(j: Java, o: Java): Java {
    j.(javaClass := o.javaClass, jarFile := o.jarFile,
       process := j.process.(base := M.SetEnvironment(M.SetDirectory(j.process.base, o.process.base.directory),
                                                      o.process.base.environment)))
  }

  /** `configureFrom` with the getters returning the lists themselves. */
  function ConfigureFrom(j: Java, other: Other): (r: Result<Java>)
    ensures other.NotJava? <==> r == Err(UnsupportedOperation)
    ensures r.Ok? ==> ConfigOf(r.value) == ConfigOf(other.java)
    ensures r.Ok? ==> r.value.process.base.id == j.process.base.id
    ensures r.Ok? ==> r.value.process.base.directory == other.java.process.base.directory
    ensures r.Ok? ==> r.value.process
                      == j.process.(base := M.SetEnvironment(M.SetDirectory(j.process.base, other.java.process.base.directory),
                                                            other.java.process.base.environment))
  {
    match other
    case NotJava => Err(UnsupportedOperation)
    case JavaLike(o) =>
      Ok(ConfigureRest(j.(javaExecutable := o.javaExecutable, arguments := o.arguments, vmOptions := o.vmOptions), o))
  }

  /** A clone and a configured process have the configuration they were
      made from; `configureFrom` as written agrees when the lists are set. */
  lemma CopiesAreSameConfiguration(j: Java, o: Java, freshId: M.Id)
    ensures IsSameConfiguration(Clone(j, freshId), JavaLike(j))
    ensures IsSameConfiguration(ConfigureFrom(j, JavaLike(o)).value, JavaLike(o))
    ensures o.arguments.Some? && o.vmOptions.Some? ==>
              ConfigureFromAsWritten(j, JavaLike(o)) == Configured(ConfigureFrom(j, JavaLike(o)).value, Pass)
  {
  }
}

=== FILE: managed.dfy ===
/** The platform-independent part of a supervised process: its identity and
    configuration, the naming of its control directory, re-discovery of the id
    from a home directory, and the guards of `start`.

Filesystem effects are replaced by what the code observes: a home directory
is its listing, and the appearance of the output files is a predicate over the
successive checks of the start-up poll loop.
 */
module AbstractManagedProcess {
  import opened Outcomes
  import opened Text

  /** The text form of the process's UUID. */
  type Id = string
  type Path = string

  const ControlDirPrefix: string := ".control-"
  /** `File.separatorChar` on the Unix hosts the supervisor supports. */
  const SeparatorChar: char := '/'
  const DefaultKillTimeoutSeconds: int := 10
  /** `start` gives up once its poll counter has passed this value. */
  const StartPollLimit: nat := 150

  /** Names of the redirected standard streams inside the control directory. */
  const StdInFile: string := "std.in"
  const StdOutFile: string := "std.out"
  const StdErrFile: string := "std.err"

  /** `getControlDirectoryFileName`: prefix followed by the id. */
  function ControlDirectoryFileName(id: Id): (r: string)
    ensures StartsWith(r, ControlDirPrefix)
    ensures r[|ControlDirPrefix|..] == id
  {
    ControlDirPrefix + id
  }

  /** `inControlDirectory`: a file inside the control directory, relative to
      the process's home directory. */
  function InControlDirectory(id: Id, fileName: string): (r: string)
    ensures StartsWith(r, ControlDirectoryFileName(id) + [SeparatorChar])
    ensures r[|ControlDirectoryFileName(id)| + 1..] == fileName
  {
    ControlDirectoryFileName(id) + [SeparatorChar] + fileName
  }

  /** Reads a control-file path back into the id and the file name. */
  function SplitControlPath(path: string): Option<(Id, string)> {
    if !StartsWith(path, ControlDirPrefix) then None
    else
      var rest := path[|ControlDirPrefix|..];
      match IndexOf(rest, SeparatorChar)
      case None => None
      case Some(i) => Some((rest[..i], rest[i + 1..]))
  }

  /** A control-file path determines its id and file name (UUID text holds no
      separator). */
  lemma SplitInControlDirectory(id: Id, fileName: string)
    requires SeparatorChar !in id
    ensures SplitControlPath(InControlDirectory(id, fileName)) == Some((id, fileName))
  {
    var path := InControlDirectory(id, fileName);
    var rest := path[|ControlDirPrefix|..];
    assert rest == id + [SeparatorChar] + fileName;
    IndexOfAfter(id, SeparatorChar, fileName);
    assert rest[..|id|] == id;
    assert rest[|id| + 1..] == fileName;
  }

  /** Different ids or different file names never share a path. */
  lemma InControlDirectoryInjective(id1: Id, file1: string, id2: Id, file2: string)
    requires SeparatorChar !in id1 && SeparatorChar !in id2
    requires InControlDirectory(id1, file1) == InControlDirectory(id2, file2)
    ensures id1 == id2 && file1 == file2
  {
    SplitInControlDirectory(id1, file1);
    SplitInControlDirectory(id2, file2);
  }

  /** The home directory as `getIdFrom` finds it. A listing that fails with an
      I/O error (`listFiles` returning null) behaves like `Missing`. */
  datatype Home = Missing | NotADirectory | Directory(entries: seq<string>)

  /** The entry names the `.control-` filter accepts, in listing order. */
  function ControlEntries(entries: seq<string>): (r: seq<string>)
    ensures forall x :: x in r <==> x in entries && StartsWith(x, ControlDirPrefix)
    ensures |r| <= |entries|
  {
    if |entries| == 0 then []
    else
      (if StartsWith(entries[0], ControlDirPrefix) then [entries[0]] else [])
      + ControlEntries(entries[1..])
  }

  /** `getIdFrom`: the id named by the single control directory of `home`;
      None for a missing home, no control entry, several, or an empty id. */
  function GetIdFrom(home: Home): (r: Option<Id>)
    ensures !home.Directory? ==> r == None
    ensures home.Directory? && |ControlEntries(home.entries)| != 1 ==> r == None
    ensures r.Some? ==> home.Directory? && ControlEntries(home.entries) == [ControlDirectoryFileName(r.value)]
    ensures r.Some? ==> r.value != ""
    ensures home.Directory? && |ControlEntries(home.entries)| == 1 ==>
              (r.None? <==> ControlEntries(home.entries)[0] == ControlDirPrefix)
  {
    match home
    case Missing => None
    case NotADirectory => None
    case Directory(entries) =>
      var contents := ControlEntries(entries);
      if |contents| == 0 then None
      else if |contents| > 1 then None
      else
        assert contents[0] in contents;
        var idText := contents[0][|ControlDirPrefix|..];
        if |idText| == 0 then None
        else
          assert contents[0] == ControlDirPrefix + idText;
          Some(idText)
  }

  /** Naming round trip: a home directory yields `id` exactly when its only
      control entry is the control directory named after `id`. */
  lemma GetIdFromRoundTrip(home: Home, id: Id)
    requires id != ""
    ensures GetIdFrom(home) == Some(id) <==>
              home.Directory? && ControlEntries(home.entries) == [ControlDirectoryFileName(id)]
  {
    if home.Directory? && ControlEntries(home.entries) == [ControlDirectoryFileName(id)] {
      assert ControlDirectoryFileName(id)[|ControlDirPrefix|..] == id;
    }
  }

  /** Identity and configuration of a supervised process. `None` stands for a
      null field. */
  datatype Managed = Managed(
    id: Id,
    command: Option<seq<string>>,
    directory: Option<Path>,
    environment: Option<map<string, string>>,
    terminated: bool)

  /** What `getCommand`, `getDirectory` and `getEnvironment` report. */
  datatype Config = Config(
    command: Option<seq<string>>,
    directory: Option<Path>,
    environment: Option<map<string, string>>)

  function ConfigOf(p: Managed): Config {
    Config(p.command, p.directory, p.environment)
  }

  /** A new process: empty command list, no directory, no environment. */
  function New(id: Id): Managed {
    Managed(id, Some([]), None, None, false)
  }

  /** `setCommand`: a null list is stored as an empty one; both overloads
      store the same elements in the same order. */
  function SetCommand(p: Managed, command: Option<seq<string>>): (r: Managed)
    ensures r.command.Some?
    ensures command.Some? ==> r.command == command
    ensures command.None? ==> r.command == Some([])
    ensures r == p.(command := r.command)
  {
    p.(command := Some(command.GetOr([])))
  }

  /** `addCommand`: appends one piece, creating the list if it is null. */
  function AddCommand(p: Managed, piece: string): (r: Managed)
    ensures r.command.Some? && |r.command.value| >= 1
    ensures r.command.value[|r.command.value| - 1] == piece
    ensures r.command.value[..|r.command.value| - 1] == p.command.GetOr([])
    ensures r == p.(command := r.command)
  {
    p.(command := Some(p.command.GetOr([]) + [piece]))
  }

  /** `setDirectory(File)`. */
  function SetDirectory(p: Managed, directory: Option<Path>): (r: Managed)
    ensures r.directory == directory && r == p.(directory := directory)
  {
    p.(directory := directory)
  }

  /** The state after a setter that may throw, and whether it threw. */
  datatype Updated = Updated(proc: Managed, outcome: Outcome)

  /** `setDirectory(String)` as written: the null branch clears the directory
      but does not return, so the method goes on to `new File(null)`, which
      throws `NullPointerException` with the directory already cleared. */
  function SetDirectoryTextAsWritten(p: Managed, directory: Option<string>): (r: Updated)
    ensures directory.None? ==> r == Updated(p.(directory := None), Fail(NullPointer))
    ensures directory.Some? ==> r == Updated(SetDirectory(p, directory), Pass)
  {
    match directory
    case None => Updated(SetDirectory(p, None), Fail(NullPointer))
    case Some(d) => Updated(SetDirectory(p, Some(d)), Pass)
  }

  /** `setDirectory(String)` as its null branch intends: null clears the
      directory, like the `File` overload. */
  function SetDirectoryText(p: Managed, directory: Option<string>): (r: Managed)
    ensures r == SetDirectory(p, directory)
  {
    p.(directory := directory)
  }

  /** The two versions always leave the same state; they part only in that
      the version as written throws on null, where the intended one returns. */
  lemma SetDirectoryTextNullThrows(p: Managed, directory: Option<string>)
    ensures SetDirectoryTextAsWritten(p, directory).proc == SetDirectoryText(p, directory)
    ensures SetDirectoryTextAsWritten(p, directory).outcome.Fail? <==> directory.None?
    ensures SetDirectoryTextAsWritten(p, None).outcome == Fail(NullPointer)
    ensures SetDirectoryText(p, None).directory == None
  {
  }

  /** `setEnvironment`: a null map is stored as an empty one. */
  function SetEnvironment(p: Managed, environment: Option<map<string, string>>): (r: Managed)
    ensures r.environment.Some?
    ensures environment.Some? ==> r.environment == environment
    ensures environment.None? ==> r.environment == Some(map[])
    ensures r == p.(environment := r.environment)
  {
    p.(environment := Some(environment.GetOr(map[])))
  }

  /** After normalisation a null command or environment cannot be told apart
      from an empty one. */
  lemma NullSettersStoreEmpty(p: Managed)
    ensures SetCommand(p, None) == SetCommand(p, Some([]))
    ensures SetEnvironment(p, None) == SetEnvironment(p, Some(map[]))
  {
  }

  /** `isSameConfiguration`: command, directory and environment compared
      field by field, a null field equal only to a null field. */
  function IsSameConfiguration(p: Managed, other: Config): (r: bool)
    ensures r <==> ConfigOf(p) == other
  {
    && (if p.command.None? then other.command.None? else p.command == other.command)
    && (if p.directory.None? then other.directory.None? else p.directory == other.directory)
    && (if p.environment.None? then other.environment.None? else p.environment == other.environment)
  }

  /** `clone`: a new instance (new id, not terminated) carrying the command,
      the directory and a copy of the environment. */
  function Clone(p: Managed, freshId: Id): (r: Managed)
    ensures r.id == freshId && !r.terminated
    ensures ConfigOf(r) == ConfigOf(p)
  {
    // The environment is copied into a fresh map; maps are values here, so
    // the copy is the map itself. The command list is shared, as in Java.
    Managed(freshId, p.command, p.directory, p.environment, false)
  }

  /** `configureFrom`: takes over the other process's command, environment and
      directory; the id and the lifecycle flag stay. */
  function ConfigureFrom(p: Managed, other: Config): (r: Managed)
    ensures ConfigOf(r) == other
    ensures r.id == p.id && r.terminated == p.terminated
  {
    p.(command := other.command, environment := other.environment, directory := other.directory)
  }

  /** A clone and a configured process have the configuration they copied,
      seen from either side. */
  lemma CopiesAreSameConfiguration(p: Managed, q: Managed, freshId: Id)
    ensures IsSameConfiguration(Clone(p, freshId), ConfigOf(p))
    ensures IsSameConfiguration(p, ConfigOf(Clone(p, freshId)))
    ensures IsSameConfiguration(ConfigureFrom(p, ConfigOf(q)), ConfigOf(q))
    ensures IsSameConfiguration(q, ConfigOf(ConfigureFrom(p, ConfigOf(q))))
  {
  }

  /** How the base `start` ended when it returned normally. */
  datatype Launch = AlreadyActive | NothingToRun | Launched

  datatype BaseStart = BaseStart(proc: Managed, outcome: Result<Launch>)

  /** The poll loop at the end of `start`: `ready(k)` says whether std.out and
      std.err both exist at the k-th check. A missing file at a check whose
      counter has already passed the limit throws. */
  function PollStreams(ready: nat -> bool, counter: nat): (r: bool)
    requires counter <= StartPollLimit + 1
    ensures r <==> exists k :: counter <= k <= StartPollLimit + 1 && ready(k)
    decreases StartPollLimit + 1 - counter
  {
    if ready(counter) then true
    else if counter > StartPollLimit then false
    else PollStreams(ready, counter + 1)
  }

  /** The base `start`. `active` is what `isActive()` answers on entry. */
  function Start(p: Managed, active: bool, ready: nat -> bool): (r: BaseStart)
    ensures active ==> r == BaseStart(p, Ok(AlreadyActive))
    ensures !active ==> r.proc == p.(terminated := false, command := r.proc.command)
    ensures !active && (p.command.None? || p.command.value == []) ==>
              r.proc.command == Some([]) && r.outcome == Ok(NothingToRun)
    ensures !active && p.command.Some? && p.command.value != [] ==> r.proc.command == p.command
    ensures !active && p.command.Some? && p.command.value != [] && p.directory.None? ==>
              r.outcome == Err(IllegalState)
    ensures !active && p.command.Some? && p.command.value != [] && p.directory.Some? ==>
              (r.outcome == Ok(Launched) <==> exists k :: 0 <= k <= StartPollLimit + 1 && ready(k))
    ensures r.outcome.Err? ==> r.outcome.error == IllegalState || r.outcome.error == IOFailure
  {
    if active then BaseStart(p, Ok(AlreadyActive))
    else
      var p1 := p.(terminated := false);
      if p1.command.None? || |p1.command.value| == 0 then BaseStart(p1.(command := Some([])), Ok(NothingToRun))
      else if p1.directory.None? then BaseStart(p1, Err(IllegalState))
      else if PollStreams(ready, 0) then BaseStart(p1, Ok(Launched))
      else BaseStart(p1, Err(IOFailure))
  }
}

=== FILE: outcomes.dfy ===
/** Failure-carrying datatypes shared by the model.

- Option<T> stands for a Java reference that may be null.
- Result<T> is a value or the kind of exception the Java code throws.
- Outcome is a `void` call that either returns normally or throws.
 */
module Outcomes {

  datatype Option<+T> = None | Some(value: T) {

    /** The value, or `default` for a null reference. */
    function GetOr(default: T): T {
      match this
      case Some(v) => v
      case None => default
    }
  }

  /** The exception kinds the supervised-process code raises. */
  datatype Error =
    | IllegalState          // java.lang.IllegalStateException
    | IllegalThreadState    // java.lang.IllegalThreadStateException
    | IllegalArgument       // java.lang.IllegalArgumentException
    | NumberFormat          // java.lang.NumberFormatException from Integer.parseInt
    | NullPointer           // java.lang.NullPointerException
    | IOFailure             // java.io.IOException
    | CannotStopProcess     // com.hellblazer.process.CannotStopProcessException
    | UnsupportedOperation  // java.lang.UnsupportedOperationException

  datatype Result<+T> = Ok(value: T) | Err(error: Error)

  datatype Outcome = Pass | Fail(error: Error)
}

=== FILE: script.dfy ===
/** The shell script a Unix process is launched through, and the names of the
    files that script and the process's control code share.

The script redirects the standard streams into the control directory, starts
the quoted command in the background under `nohup`, and records the command's
pid, its exit status and the pid of the wrapping sub-shell.
 */
module LaunchScript {
  import opened Outcomes
  import opened Text
  import M = AbstractManagedProcess

  const PidFile: string := "pid"
  const WrapperPidFile: string := "wrapper.pid"
  const ExitValueFile: string := "exit.value"
  const ScriptFile: string := "run.sh"

  /** One command part as it is written: in double quotes, then a space. */
  function Quote(part: string): (r: string)
    ensures |r| == |part| + 3 && r[0] == '"' && r[1..|part| + 1] == part
    ensures r[|part| + 1..] == "\" "
  {
    "\"" + part + "\" "
  }

  /** The quoted command parts, one after another. */
  function QuoteParts(command: seq<string>): string {
    if |command| == 0 then "" else Quote(command[0]) + QuoteParts(command[1..])
  }

  /** Parts are written in argument order: the text for a command is the
      text for its first parts followed by the text for the rest. */
  lemma {:induction false} QuotePartsConcat(a: seq<string>, b: seq<string>)
    ensures QuoteParts(a + b) == QuoteParts(a) + QuoteParts(b)
    decreases |a|
  {
    if |a| > 0 {
      assert (a + b)[1..] == a[1..] + b;
      QuotePartsConcat(a[1..], b);
    } else {
      assert a + b == b;
    }
  }

  /** Cuts quoted text back into its parts: each part runs from an opening
      quote to the next quote, which must be followed by a space. */
  function UnquoteParts(s: string): Option<seq<string>>
    decreases |s|
  {
    if |s| == 0 then Some([])
    else if s[0] != '"' then None
    else
      match IndexOf(s[1..], '"')
      case None => None
      case Some(i) =>
        var after := s[i + 2..];
        if |after| == 0 || after[0] != ' ' then None
        else
          match UnquoteParts(after[1..])
          case None => None
          case Some(rest) => Some([s[1..i + 1]] + rest)
  }

  predicate NoQuotes(command: seq<string>) {
    forall k :: 0 <= k < |command| ==> '"' !in command[k]
  }

  /** Unquoting takes one quoted part off the front. */
  lemma UnquoteOne(part: string, rest: string, parts: seq<string>)
    requires '"' !in part && UnquoteParts(rest) == Some(parts)
    ensures UnquoteParts(Quote(part) + rest) == Some([part] + parts)
  {
    var s := Quote(part) + rest;
    var after := " " + rest;
    assert s == [s[0]] + (part + ['"'] + after);
    assert s[1..] == part + ['"'] + after;
    IndexOfAfter(part, '"', after);
    assert s[|part| + 2..] == after;
    assert s[1..|part| + 1] == part;
    assert after[1..] == rest;
  }

  /** Quoting is undone by unquoting as long as no part holds a quote. */
  lemma {:induction false} UnquoteQuoteParts(command: seq<string>)
    requires NoQuotes(command)
    ensures UnquoteParts(QuoteParts(command)) == Some(command)
    decreases |command|
  {
    if |command| > 0 {
      var head, tail := command[0], command[1..];
      assert NoQuotes(tail) by {
        forall k | 0 <= k < |tail| ensures '"' !in tail[k] {
          assert tail[k] == command[k + 1];
        }
      }
      UnquoteQuoteParts(tail);
      var text := QuoteParts(tail);
      assert QuoteParts(command) == Quote(head) + text;
      UnquoteOne(head, text, tail);
      assert [head] + tail == command;
    }
  }

  /** A part holding `" "` cannot be told from two parts: the script runs
      the command `a`, `b` for the one-part command `a" "b`. */
  lemma QuotingIsAmbiguous()
    ensures QuoteParts(["a\" \"b"]) == QuoteParts(["a", "b"])
  {
  }

  /** What the script line launching the command ends with. */
  function LaunchTail(id: M.Id): string {
    " < " + M.InControlDirectory(id, M.StdInFile)
    + " & x=$!; echo $x > " + M.InControlDirectory(id, PidFile)
    + "; wait $x; echo $? > " + M.InControlDirectory(id, ExitValueFile)
    + ")&"
  }

  const LaunchHead: string := "(nohup "

  /** The fourth script line: the command in a background sub-shell whose pid,
      and whose command's exit status, are written to the control directory. */
  function LaunchLine(id: M.Id, command: seq<string>): string {
    LaunchHead + QuoteParts(command) + LaunchTail(id)
  }

  /** `writeScript`: the lines of `run.sh`. */
  function ScriptLines(id: M.Id, command: seq<string>): seq<string> {
    [ "#!/bin/sh",
      "exec 1> " + M.InControlDirectory(id, M.StdOutFile),
      "exec 2> " + M.InControlDirectory(id, M.StdErrFile),
      LaunchLine(id, command),
      "echo $! > " + M.InControlDirectory(id, WrapperPidFile) ]
  }

  /** The text written to `run.sh`, every line newline-terminated. */
  function ScriptText(id: M.Id, command: seq<string>): string {
    JoinLines(ScriptLines(id, command))
  }

  /** Reads the command back from a launch line of the given process. */
  function CommandOfLaunchLine(id: M.Id, line: string): Option<seq<string>> {
    var tail := LaunchTail(id);
    if |line| < |LaunchHead| + |tail| then None
    else if line[..|LaunchHead|] != LaunchHead || line[|line| - |tail|..] != tail then None
    else UnquoteParts(line[|LaunchHead|..|line| - |tail|])
  }

  /** The launch line carries the command: it can be read back exactly. */
  lemma LaunchLineCarriesCommand(id: M.Id, command: seq<string>)
    requires NoQuotes(command)
    ensures CommandOfLaunchLine(id, LaunchLine(id, command)) == Some(command)
  {
    var line := LaunchLine(id, command);
    var q := QuoteParts(command);
    var tail := LaunchTail(id);
    assert line[..|LaunchHead|] == LaunchHead;
    assert line[|line| - |tail|..] == tail;
    assert line[|LaunchHead|..|line| - |tail|] == q;
    UnquoteQuoteParts(command);
  }

  predicate NoNewlines(command: seq<string>) {
    forall k :: 0 <= k < |command| ==> '\n' !in command[k]
  }

  lemma {:induction false} QuotePartsNoNewline(command: seq<string>)
    requires NoNewlines(command)
    ensures '\n' !in QuoteParts(command)
    decreases |command|
  {
    if |command| > 0 {
      QuotePartsNoNewline(command[1..]);
    }
  }

  lemma ControlPathNoNewline(id: M.Id, fileName: string)
    requires '\n' !in id && '\n' !in fileName
    ensures '\n' !in M.InControlDirectory(id, fileName)
  {
  }

  /** Read line by line, the script is the five lines above: one per
      redirection, the launch line, and the wrapper-pid line. */
  lemma ScriptReadsAsLines(id: M.Id, command: seq<string>)
    requires '\n' !in id && NoNewlines(command)
    ensures SplitLines(ScriptText(id, command)) == ScriptLines(id, command)
    ensures |SplitLines(ScriptText(id, command))| == 5
  {
    QuotePartsNoNewline(command);
    var lines := ScriptLines(id, command);
    ControlPathNoNewline(id, M.StdInFile);
    ControlPathNoNewline(id, M.StdOutFile);
    ControlPathNoNewline(id, M.StdErrFile);
    ControlPathNoNewline(id, PidFile);
    ControlPathNoNewline(id, ExitValueFile);
    ControlPathNoNewline(id, WrapperPidFile);
    assert '\n' !in LaunchTail(id);
    assert '\n' !in lines[3];
    SplitJoinLines(lines);
  }

  /** The script recovers the command it was written for. */
  lemma ScriptCarriesCommand(id: M.Id, command: seq<string>)
    requires '\n' !in id && NoNewlines(command) && NoQuotes(command)
    ensures var lines := SplitLines(ScriptText(id, command));
            |lines| == 5 && CommandOfLaunchLine(id, lines[3]) == Some(command)
  {
    ScriptReadsAsLines(id, command);
    LaunchLineCarriesCommand(id, command);
  }
}

=== FILE: tailer.dfy ===
/** The cached tail reader: bounded views of the last lines of a growing file.

The target file is given to each call as the sequence of its lines at that
moment. The periodic timer and the read/write lock are reduced to what one
caller observes: the expiry flag, and whether its non-blocking attempt to take
the write lock succeeds.
 */
module CachedFileTailer {
  import opened Outcomes

  /** `maxLines` is fixed at construction; `lines` is the cache in file order;
      `expired` is the flag the timer sets and a refresh clears. */
  datatype Tailer = Tailer(maxLines: int, lines: seq<string>, expired: bool)

  /** What a `getTailLines` call leaves behind and what it returns. */
  datatype Tail = Tail(tailer: Tailer, result: seq<string>)

  /** The cache never holds more than `maxLines` lines. */
  predicate Valid(t: Tailer) {
    0 <= t.maxLines && |t.lines| <= t.maxLines
  }

  function Min(a: int, b: int): int {
    if a <= b then a else b
  }

  /** The last `count` lines of `file`; the whole file when it is shorter. */
  function LastLines(file: seq<string>, count: nat): (r: seq<string>)
    ensures |r| == Min(count, |file|)
  {
    if count >= |file| then file else file[|file| - count..]
  }

  /** The constructor. `periodMillis` is the freshness interval converted to
      milliseconds. `new ArrayList<>(maxLines)` rejects a negative capacity
      and `Timer.scheduleAtFixedRate` rejects a period that is not positive;
      both throw `IllegalArgumentException`. */
  function NewTailer(maxLines: int, periodMillis: int): (r: Result<Tailer>)
    ensures r.Ok? <==> 0 <= maxLines && 0 < periodMillis
    ensures r.Err? ==> r.error == IllegalArgument
    ensures r.Ok? ==> Valid(r.value) && r.value.maxLines == maxLines
    ensures r.Ok? ==> r.value.expired && r.value.lines == []
  {
    if maxLines < 0 || periodMillis <= 0 then Err(IllegalArgument)
    else Ok(Tailer(maxLines, [], true))
  }

  /** The timer task: marks the cache as expired and touches nothing else. */
  function Expire(t: Tailer): Tailer {
    t.(expired := true)
  }

  function Reverse<T>(s: seq<T>): (r: seq<T>)
    ensures |r| == |s|
    ensures forall i :: 0 <= i < |s| ==> r[i] == s[|s| - 1 - i]
  {
    if |s| == 0 then [] else Reverse(s[1..]) + [s[0]]
  }

  /** The lines the loop of `loadLines` keeps: the reversed reader hands out
      the last line first, and the loop stops at the start of the file or once
      `budget` lines are kept. */
  function ReadReversed(file: seq<string>, budget: int): seq<string>
    decreases |file|
  {
    if |file| == 0 || budget <= 0 then []
    else [file[|file| - 1]] + ReadReversed(file[..|file| - 1], budget - 1)
  }

  /** `loadLines`: the reversed read, put back into file order. */
  function LoadLines(file: seq<string>, maxLines: int): seq<string> {
    Reverse(ReadReversed(file, maxLines))
  }

  lemma ReverseSnoc<T>(s: seq<T>, x: T)
    ensures Reverse(s + [x]) == [x] + Reverse(s)
  {
  }

  /** The tail of a file with one more line is the shorter tail plus it. */
  lemma LastLinesSnoc(init: seq<string>, last: string, budget: nat)
    requires budget > 0
    ensures LastLines(init + [last], budget) == LastLines(init, budget - 1) + [last]
  {
  }

  /** Reading backwards yields the tail of the file, newest line first. */
  lemma {:induction false} ReadReversedIsReversedTail(file: seq<string>, budget: nat)
    ensures ReadReversed(file, budget) == Reverse(LastLines(file, budget))
    decreases |file|
  {
    if |file| > 0 && budget > 0 {
      var init := file[..|file| - 1];
      var last := file[|file| - 1];
      assert file == init + [last];
      ReadReversedIsReversedTail(init, budget - 1);
      LastLinesSnoc(init, last, budget);
      ReverseSnoc(LastLines(init, budget - 1), last);
    }
  }

  /** A refresh leaves exactly the last `min(k, maxLines)` lines of a k-line
      file in the cache, in file order. */
  lemma LoadLinesKeepsTail(file: seq<string>, maxLines: nat)
    ensures LoadLines(file, maxLines) == LastLines(file, maxLines)
    ensures |LoadLines(file, maxLines)| == Min(maxLines, |file|)
  {
    ReadReversedIsReversedTail(file, maxLines);
    var tail := LastLines(file, maxLines);
    assert Reverse(Reverse(tail)) == tail;
  }

  /** `getTailLines(n)`. `lockFree` says whether `writeLock().tryLock()`
      succeeds; a caller that loses that race serves the cache as it is. */
  function GetTailLines(t: Tailer, file: seq<string>, n: int, lockFree: bool): (r: Tail)
    requires Valid(t)
    ensures Valid(r.tailer) && r.tailer.maxLines == t.maxLines
    ensures n < 1 ==> r == Tail(t, [])
    ensures var refreshed := n >= 1 && t.expired && lockFree;
            && r.tailer.expired == (t.expired && !refreshed)
            && r.tailer.lines == (if refreshed then LastLines(file, t.maxLines) else t.lines)
    ensures n >= 1 ==> |r.result| == Min(Min(n, t.maxLines), |r.tailer.lines|)
    ensures r.result == r.tailer.lines[|r.tailer.lines| - |r.result|..]
  {
    if n < 1 then Tail(t, [])
    else
      var wanted := if n > t.maxLines then t.maxLines else n;
      var t' := if t.expired && lockFree
                then LoadLinesKeepsTail(file, t.maxLines);
                     t.(lines := LoadLines(file, t.maxLines), expired := false)
                else t;
      var start := if |t'.lines| - wanted < 0 then 0 else |t'.lines| - wanted;
      Tail(t', t'.lines[start..])
  }

  /** Taking the tail of the tail is taking the shorter tail. */
  lemma LastLinesOfLastLines(file: seq<string>, m: nat, k: nat)
    requires k <= m
    ensures LastLines(LastLines(file, m), k) == LastLines(file, k)
  {
  }

  /** The served lines are the last `min(n, maxLines)` lines of the cache. */
  lemma TailIsSuffixOfCache(t: Tailer, file: seq<string>, n: int, lockFree: bool)
    requires Valid(t) && n >= 1
    ensures var r := GetTailLines(t, file, n, lockFree);
            r.result == LastLines(r.tailer.lines, Min(n, t.maxLines))
  {
  }

  /** Asking for more than `maxLines` lines is asking for `maxLines`; the
      tailer state agrees too unless `maxLines` is 0, where only the larger
      request refreshes. */
  lemma TailClamped(t: Tailer, file: seq<string>, n: int, lockFree: bool)
    requires Valid(t) && n > t.maxLines
    ensures GetTailLines(t, file, n, lockFree).result
         == GetTailLines(t, file, t.maxLines, lockFree).result
    ensures t.maxLines >= 1 ==>
              GetTailLines(t, file, n, lockFree) == GetTailLines(t, file, t.maxLines, lockFree)
  {
  }

  /** A new tailer starts expired, so its first call with `n >= 1` and a free
      write lock reads the file and returns its last `min(n, maxLines)` lines. */
  lemma FirstCallLoads(maxLines: int, periodMillis: int, file: seq<string>, n: int)
    requires 0 <= maxLines && 0 < periodMillis && n >= 1
    ensures var r := GetTailLines(NewTailer(maxLines, periodMillis).value, file, n, true);
            && !r.tailer.expired
            && r.result == LastLines(file, Min(n, maxLines))
  {
    var t := NewTailer(maxLines, periodMillis).value;
    assert t == Tailer(maxLines, [], true);
    assert GetTailLines(t, file, n, true).tailer.lines == LastLines(file, maxLines);
    TailIsSuffixOfCache(t, file, n, true);
    LastLinesOfLastLines(file, maxLines, Min(n, maxLines));
  }

  /** While the flag is clear the file is not read: any two file contents
      give the same answer and the same state. */
  lemma FreshCacheIgnoresFile(t: Tailer, f1: seq<string>, f2: seq<string>, n: int, lockFree: bool)
    requires Valid(t) && !t.expired
    ensures GetTailLines(t, f1, n, lockFree) == GetTailLines(t, f2, n, lockFree)
  {
  }

  /** Once the timer has fired, the next call with a free write lock reflects
      the file as it is now. */
  lemma ExpiredCacheSeesFile(t: Tailer, file: seq<string>, n: int)
    requires Valid(t) && n >= 1
    ensures GetTailLines(Expire(t), file, n, true).result == LastLines(file, Min(n, t.maxLines))
  {
    assert GetTailLines(Expire(t), file, n, true).tailer.lines == LastLines(file, t.maxLines);
    TailIsSuffixOfCache(Expire(t), file, n, true);
    LastLinesOfLastLines(file, t.maxLines, Min(n, t.maxLines));
  }

  /** An empty file gives an empty tail for every `n`, on a new tailer or
      after any refresh of an empty file. */
  lemma EmptyFileEmptyTail(t: Tailer, n: int, lockFree: bool)
    requires Valid(t) && (t.expired || t.lines == [])
    requires t.lines == [] || lockFree
    ensures GetTailLines(t, [], n, lockFree).result == []
  {
  }

  /** A file shorter than the cache bound is served whole, in order. */
  lemma ShortFileServedWhole(file: seq<string>, maxLines: int, n: int)
    requires |file| <= maxLines && maxLines <= n
    ensures GetTailLines(NewTailer(maxLines, 1000).value, file, n, true).result == file
  {
    if n >= 1 {
      FirstCallLoads(maxLines, 1000, file, n);
    }
  }

  /** The changing-file scenario: a 6-line tailer over a 10-line file serves
      lines 5..10; after 20 more lines are appended it still serves them until
      the timer fires, and then serves lines 25..30. */
  lemma ChangingFileScenario(first: seq<string>, appended: seq<string>)
    requires |first| == 10 && |appended| == 20
    ensures var t0 := NewTailer(6, 1000).value;
            var r1 := GetTailLines(t0, first, 6, true);
            var r2 := GetTailLines(r1.tailer, first + appended, 6, true);
            var r3 := GetTailLines(Expire(r2.tailer), first + appended, 6, true);
            && r1.result == first[4..]
            && GetTailLines(r1.tailer, first, 100, true).result == first[4..]
            && GetTailLines(r1.tailer, first, 3, true).result == first[7..]
            && r2.result == first[4..]
            && r3.result == (first + appended)[24..]
  {
    var t0 := NewTailer(6, 1000).value;
    FirstCallLoads(6, 1000, first, 6);
    var r1 := GetTailLines(t0, first, 6, true);
    FreshCacheIgnoresFile(r1.tailer, first, first + appended, 6, true);
    ExpiredCacheSeesFile(GetTailLines(r1.tailer, first + appended, 6, true).tailer, first + appended, 6);
  }
}

=== FILE: text.dfy ===
/** String facts the supervisor relies on: prefix and substring tests, ASCII
    lower-casing, line splitting as `BufferedReader.readLine` does it, and the
    decimal text of Java `int`s (`String.valueOf` and `Integer.parseInt`). */
module Text {
  import opened Outcomes

  /** Range of a Java `int`. */
  const MinInt: int := -0x8000_0000
  const MaxInt: int := 0x7fff_ffff

  /** `String.startsWith`. */
  predicate StartsWith(s: string, prefix: string) {
    |prefix| <= |s| && s[..|prefix|] == prefix
  }

  /** `String.contains`: `t` occurs in `s` at some offset. */
  predicate Contains(s: string, t: string)
    decreases |s|
  {
    StartsWith(s, t) || (|s| > 0 && Contains(s[1..], t))
  }

  /** A string missing one of `t`'s characters does not contain `t`. */
  lemma {:induction false} ContainsNeedsChar(s: string, t: string, c: char)
    requires c in t && c !in s
    ensures !Contains(s, t)
    decreases |s|
  {
    if |t| <= |s| {
      assert forall x :: x in s[..|t|] ==> x in s;
    }
    if |s| > 0 {
      assert forall x :: x in s[1..] ==> x in s;
      ContainsNeedsChar(s[1..], t, c);
    }
  }

  /** ASCII case folding, the part of `String.toLowerCase` the model keeps. */
  function LowerChar(c: char): char {
    if 'A' <= c <= 'Z' then (c as int - 'A' as int + 'a' as int) as char else c
  }

  function Lower(s: string): (r: string)
    ensures |r| == |s|
    ensures forall i :: 0 <= i < |s| ==> r[i] == LowerChar(s[i])
  {
    seq(|s|, i requires 0 <= i < |s| => LowerChar(s[i]))
  }

  /** `String.indexOf(char)`: the first position of `c`, or None. */
  function IndexOf(s: string, c: char): (r: Option<nat>)
    ensures r.Some? ==> r.value < |s| && s[r.value] == c && c !in s[..r.value]
    ensures r.None? <==> c !in s
    decreases |s|
  {
    if |s| == 0 then None
    else if s[0] == c then Some(0)
    else
      match IndexOf(s[1..], c)
      case None => None
      case Some(i) =>
        assert s[..i + 1] == [s[0]] + s[1..][..i];
        Some(i + 1)
  }

  /** The first `c` after a `c`-free prefix is found right after that prefix. */
  lemma IndexOfAfter(a: string, c: char, b: string)
    requires c !in a
    ensures IndexOf(a + [c] + b, c) == Some(|a|)
  {
    var s := a + [c] + b;
    assert s[|a|] == c;
    assert s[..|a|] == a;
  }

  /** Lines written one after another, each followed by a newline. */
  function JoinLines(lines: seq<string>): string {
    if |lines| == 0 then "" else lines[0] + "\n" + JoinLines(lines[1..])
  }

  /** Newline-terminated text cut back into its lines. */
  function SplitLines(text: string): seq<string>
    decreases |text|
  {
    if |text| == 0 then []
    else
      match IndexOf(text, '\n')
      case None => [text]
      case Some(i) => [text[..i]] + SplitLines(text[i + 1..])
  }

  /** Splitting undoes joining when no line holds a newline of its own. */
  lemma {:induction false} SplitJoinLines(lines: seq<string>)
    requires forall k :: 0 <= k < |lines| ==> '\n' !in lines[k]
    ensures SplitLines(JoinLines(lines)) == lines
    decreases |lines|
  {
    if |lines| > 0 {
      var rest := JoinLines(lines[1..]);
      var text := lines[0] + "\n" + rest;
      IndexOfAfter(lines[0], '\n', rest);
      assert text[..|lines[0]|] == lines[0];
      assert text[|lines[0]| + 1..] == rest;
      SplitJoinLines(lines[1..]);
      assert [lines[0]] + lines[1..] == lines;
    }
  }

  predicate IsLineBreak(c: char) {
    c == '\n' || c == '\r'
  }

  /** The text before the first line break. */
  function UpToLineBreak(s: string): (r: string)
    ensures |r| <= |s| && r == s[..|r|]
    ensures forall i :: 0 <= i < |r| ==> !IsLineBreak(r[i])
    ensures |r| < |s| ==> IsLineBreak(s[|r|])
    decreases |s|
  {
    if |s| == 0 || IsLineBreak(s[0]) then "" else [s[0]] + UpToLineBreak(s[1..])
  }

  /** `BufferedReader.readLine` on a fresh reader: null for empty content,
      otherwise the characters before the first '\n' or '\r'. */
  function FirstLine(content: string): Option<string> {
    if |content| == 0 then None else Some(UpToLineBreak(content))
  }

  /** A line written with a terminating newline reads back unchanged. */
  lemma FirstLineOf(line: string, rest: string)
    requires forall i :: 0 <= i < |line| ==> !IsLineBreak(line[i])
    ensures FirstLine(line + "\n" + rest) == Some(line)
  {
    var s := line + "\n" + rest;
    assert s[|line|] == '\n';
    assert s[..|line|] == line;
  }

  predicate IsDigit(c: char) {
    '0' <= c <= '9'
  }

  predicate AllDigits(s: string) {
    forall i :: 0 <= i < |s| ==> IsDigit(s[i])
  }

  /** The value of a string of decimal digits, most significant first. */
  function DigitsValue(s: string): nat
    requires AllDigits(s)
    decreases |s|
  {
    if |s| == 0 then 0 else DigitsValue(s[..|s| - 1]) * 10 + (s[|s| - 1] as int - '0' as int)
  }

  /** `Integer.parseInt(s)` for ASCII digits: an optional '+' or '-', at least
      one digit, and a value inside the `int` range; None where Java throws
      `NumberFormatException`. */
  function ParseInt(s: string): (r: Option<int>)
    ensures r.Some? ==> MinInt <= r.value <= MaxInt
    ensures r.Some? ==> 0 < |s| && (AllDigits(s) || ((s[0] == '-' || s[0] == '+') && AllDigits(s[1..])))
  {
    if |s| == 0 then None
    else
      var signed := s[0] == '-' || s[0] == '+';
      var digits := if signed then s[1..] else s;
      if |digits| == 0 || !AllDigits(digits) then None
      else
        var v: int := if s[0] == '-' then -(DigitsValue(digits) as int) else DigitsValue(digits);
        if MinInt <= v <= MaxInt then Some(v) else None
  }

  function DigitChar(d: nat): char
    requires d < 10
  {
    ('0' as int + d) as char
  }

  /** Decimal text of a natural number, without leading zeros. */
  function ShowNat(n: nat): (r: string)
    ensures 0 < |r| && AllDigits(r)
    decreases n
  {
    if n < 10 then [DigitChar(n)] else ShowNat(n / 10) + [DigitChar(n % 10)]
  }

  /** `String.valueOf(int)`. */
  function ShowInt(n: int): (r: string)
    ensures 0 < |r|
  {
    if n < 0 then "-" + ShowNat(-n) else ShowNat(n)
  }

  lemma {:induction false} DigitsValueShowNat(n: nat)
    ensures DigitsValue(ShowNat(n)) == n
    decreases n
  {
    if n >= 10 {
      var s := ShowNat(n);
      assert s[..|s| - 1] == ShowNat(n / 10);
      DigitsValueShowNat(n / 10);
    }
  }

  /** `Integer.parseInt(String.valueOf(n)) == n` for every Java `int`. */
  lemma ParseShowInt(n: int)
    requires MinInt <= n <= MaxInt
    ensures ParseInt(ShowInt(n)) == Some(n)
  {
    var s := ShowInt(n);
    if n < 0 {
      assert s[1..] == ShowNat(-n);
      DigitsValueShowNat(-n);
    } else {
      assert IsDigit(s[0]);
      DigitsValueShowNat(n);
    }
  }

  /** Decimal text never holds a line break. */
  lemma ShowIntNoLineBreak(n: int)
    ensures forall i :: 0 <= i < |ShowInt(n)| ==> !IsLineBreak(ShowInt(n)[i])
  {
    var s := ShowInt(n);
    if n < 0 {
      assert forall i :: 1 <= i < |s| ==> s[i] == ShowNat(-n)[i - 1];
    }
  }
}

=== FILE: unix.dfy ===
/** A supervised process on a Unix host: pids recorded by the launch script,
    liveness from `ps`, graceful-then-forced termination, and the exit status
    read back from the control directory.

Every `ps` run an operation makes is answered by a `Probe`: the k-th run of
one call gets `probe(k)`. The files the code polls are given as what each
successive look finds. Sleeping, the wall clock and thread interrupts are not
modelled; the clock of `stop` is the number of wait rounds that fit in its
deadline.
 */
module UnixProcess {
  import opened Outcomes
  import opened Text
  import M = AbstractManagedProcess
  import S = LaunchScript

  /** `ps` states that count as running: uninterruptible wait, idle, runnable,
      sleeping. */
  const ActiveStates: seq<string> := ["U", "I", "R", "S"]
  /** The pid of a process that was never started or whose pid is unknown. */
  const NoPid: int := -1
  /** `readPid` looks this many times for a non-empty pid file. */
  const PidPollLimit: nat := 1000
  /** The signal of the last-resort kill. */
  const ForceKillSignal: int := 9
  /** Header line `ps -o state` prints above the state. */
  const StateHeader: string := "STAT"

  /** The base process plus the pids and the cached exit status, all -1
      until known. */
  datatype Unix = Unix(base: M.Managed, pid: int, wrapperPid: int, exitValue: int)

  function New(id: M.Id): Unix {
    Unix(M.New(id), NoPid, NoPid, -1)
  }

  // ---------------------------------------------------------------------------
  // Asking ps about a pid

  /** How one run of `ps -o state -p <pid>` ended. */
  datatype PsReply =
    | PsExited(status: int, output: seq<string>)  // exit status and output lines
    | PsNotStarted                                // the ps process could not be started
    | PsInterrupted                               // waiting for ps was interrupted

  type Probe = nat -> PsReply

  /** The probe as seen by an operation that runs after `n` earlier ps runs. */
  function Shift(probe: Probe, n: nat): Probe {
    (k: nat) => probe(k + n)
  }

  /** The argument vector of the ps run that `ProcessStatus` interprets. */
  function PsCommand(pid: int): seq<string> {
    ["ps", "-o", "state", "-p", ShowInt(pid)]
  }

  /** The ps run asks about exactly the pid it was given: its last argument
      reads back as that pid, and distinct pids give distinct runs. */
  lemma PsCommandNamesPid(pid: int, other: int)
    requires MinInt <= pid <= MaxInt && MinInt <= other <= MaxInt
    ensures |PsCommand(pid)| == 5 && PsCommand(pid)[..4] == ["ps", "-o", "state", "-p"]
    ensures ParseInt(PsCommand(pid)[4]) == Some(pid)
    ensures PsCommand(pid) == PsCommand(other) <==> pid == other
  {
    ParseShowInt(pid);
    ParseShowInt(other);
    if PsCommand(pid) == PsCommand(other) {
      assert PsCommand(pid)[4] == PsCommand(other)[4];
    }
  }

  /** `getProcessStatus`: the state text `ps` reports, None when there is no
      such process. An interrupted wait reports an empty state. */
  function ProcessStatus(pid: int, reply: PsReply): (r: Result<Option<string>>)
    ensures pid == NoPid ==> r == Ok(None)
    ensures pid != NoPid && reply.PsNotStarted? ==> r == Err(IllegalState)
    ensures pid != NoPid && reply.PsInterrupted? ==> r == Ok(Some(""))
    ensures pid != NoPid && reply.PsExited? ==>
              (reply.status == 1 ==> r == Ok(None))
              && (reply.status != 0 && reply.status != 1 ==> r == Err(IllegalState))
              && (reply.status == 0 && reply.output == [] ==> r == Err(IllegalState))
    ensures r.Err? ==> r.error == IllegalState
  {
    if pid == NoPid then Ok(None)
    else
      match reply
      case PsNotStarted => Err(IllegalState)
      case PsInterrupted => Ok(Some(""))
      case PsExited(status, output) =>
        if status == 1 then Ok(None)
        else if status != 0 then Err(IllegalState)
        else if |output| == 0 then Err(IllegalState)
        else if output[0] == StateHeader then
          (if |output| == 1 then Ok(None) else Ok(Some(output[1])))
        else Ok(Some(output[0]))
  }

  /** What `ps` prints for a pid: the header and the state line when the
      process exists (status 0), the header alone otherwise (status 1). */
  function PsReport(state: Option<string>): PsReply {
    match state
    case Some(s) => PsExited(0, [StateHeader, s])
    case None => PsExited(1, [StateHeader])
  }

  /** Reading a report gives back the state it was made from; a successful
      run that prints only the header also means there is no status. */
  lemma ProcessStatusReadsReport(pid: int, state: Option<string>)
    requires pid != NoPid
    ensures ProcessStatus(pid, PsReport(state)) == Ok(state)
    ensures ProcessStatus(pid, PsExited(0, [StateHeader])) == Ok(None)
  {
  }

  /** Without the header the first line is itself taken as the state. */
  lemma ProcessStatusWithoutHeader(pid: int, first: string, more: seq<string>)
    requires pid != NoPid && first != StateHeader
    ensures ProcessStatus(pid, PsExited(0, [first] + more)) == Ok(Some(first))
  {
  }

  /** The loop of `isActive(int)` over the active states. */
  predicate StartsWithAny(status: string, states: seq<string>)
    decreases |states|
  {
    |states| > 0 && (StartsWith(status, states[0]) || StartsWithAny(status, states[1..]))
  }

  /** A state counts as running when its first letter is U, I, R or S. */
  lemma {:induction false} ActiveStateIsFirstLetter(status: string)
    ensures StartsWithAny(status, ActiveStates) <==> |status| > 0 && status[0] in "UIRS"
  {
    var a := ActiveStates;
    assert a[1..] == ["I", "R", "S"] && a[1..][1..] == ["R", "S"];
    assert a[1..][1..][1..] == ["S"] && a[1..][1..][1..][1..] == [];
    if |status| > 0 {
      assert StartsWith(status, [status[0]]);
    }
  }

  /** `isActive(int)`. */
  function IsActive(pid: int, reply: PsReply): (r: Result<bool>)
    ensures pid == NoPid ==> r == Ok(false)
    ensures r.Err? <==> ProcessStatus(pid, reply).Err?
    ensures r == Ok(true) <==>
              && ProcessStatus(pid, reply).Ok?
              && ProcessStatus(pid, reply).value.Some?
              && StartsWithAny(ProcessStatus(pid, reply).value.value, ActiveStates)
  {
    if pid == NoPid then Ok(false)
    else
      match ProcessStatus(pid, reply)
      case Err(e) => Err(e)
      case Ok(None) => Ok(false)
      case Ok(Some(status)) => Ok(StartsWithAny(status, ActiveStates))
  }

  /** Activity as the state letter decides it: a reported state beginning
      with U, I, R or S is active; a state beginning otherwise, an empty
      state, and no process at all are inactive. */
  lemma IsActiveOfReport(pid: int, state: Option<string>)
    requires pid != NoPid
    ensures IsActive(pid, PsReport(state)) == Ok(state.Some? && |state.value| > 0 && state.value[0] in "UIRS")
  {
    ProcessStatusReadsReport(pid, state);
    if state.Some? {
      ActiveStateIsFirstLetter(state.value);
    }
  }

  /** The state after one `isDead` call, the index of the next ps run, and
      the answer or the exception. */
  datatype Probed = Probed(proc: Unix, next: nat, answer: Result<bool>)

  /** `isDead`: once the terminated flag is set it stays set and ps is not
      asked again; otherwise no status from ps sets it. */
  function IsDead(u: Unix, probe: Probe, k: nat): (r: Probed)
    ensures u.base.terminated ==> r == Probed(u, k, Ok(true))
    ensures !u.base.terminated ==> r.next == k + 1
    ensures r.answer.Ok? ==> r.proc.base.terminated == r.answer.value
    ensures r.answer.Err? ==> r.proc == u
    ensures r.proc == u.(base := u.base.(terminated := r.proc.base.terminated))
    ensures !u.base.terminated ==>
              (r.answer == Ok(true) <==> ProcessStatus(u.pid, probe(k)) == Ok(None))
              && (r.answer.Err? <==> ProcessStatus(u.pid, probe(k)).Err?)
  {
    if u.base.terminated then Probed(u, k, Ok(true))
    else
      match ProcessStatus(u.pid, probe(k))
      case Err(e) => Probed(u, k + 1, Err(e))
      case Ok(None) => Probed(u.(base := u.base.(terminated := true)), k + 1, Ok(true))
      case Ok(Some(_)) => Probed(u, k + 1, Ok(false))
  }

  /** The terminated flag never goes back: whatever ps says, a terminated
      process stays dead. */
  lemma IsDeadMonotonic(u: Unix, probe: Probe, k: nat)
    ensures u.base.terminated ==> IsDead(u, probe, k).proc.base.terminated
    ensures IsDead(u, probe, k).proc.base.terminated ==> IsDead(u, probe, k).answer == Ok(true)
  {
  }

  // ---------------------------------------------------------------------------
  // Signals

  datatype Signal = Terminate | Numbered(number: int)

  /** `kill()`: a plain kill, nothing when there is no pid. */
  function Kill(u: Unix): (r: seq<Signal>)
    ensures r == [] <==> u.pid == NoPid
    ensures u.pid != NoPid ==> |r| == 1 && KillCommand(u.pid, r[0]) == ["kill", ShowInt(u.pid)]
  {
    if u.pid == NoPid then [] else [Terminate]
  }

  /** `kill(signal)`: a numbered kill, nothing when there is no pid. */
  function KillWith(u: Unix, signal: int): (r: seq<Signal>)
    ensures r == [] <==> u.pid == NoPid
    ensures u.pid != NoPid ==> |r| == 1 && KillCommand(u.pid, r[0]) == ["kill", "-" + ShowInt(signal), ShowInt(u.pid)]
  {
    if u.pid == NoPid then [] else [Numbered(signal)]
  }

  /** The argument vector a signal is sent to a pid with. */
  function KillCommand(pid: int, s: Signal): seq<string> {
    match s
    case Terminate => ["kill", ShowInt(pid)]
    case Numbered(n) => ["kill", "-" + ShowInt(n), ShowInt(pid)]
  }

  /** Reads a kill argument vector back into the pid and the signal. */
  function ParseKillCommand(argv: seq<string>): Option<(int, Signal)> {
    if |argv| == 2 && argv[0] == "kill" then
      match ParseInt(argv[1])
      case Some(pid) => Some((pid, Terminate))
      case None => None
    else if |argv| == 3 && argv[0] == "kill" && |argv[1]| >= 1 && argv[1][0] == '-' then
      match (ParseInt(argv[1][1..]), ParseInt(argv[2]))
      case (Some(n), Some(pid)) => Some((pid, Numbered(n)))
      case _ => None
    else None
  }

  /** Every kill the model sends names its pid and its signal unambiguously. */
  lemma KillCommandReadsBack(pid: int, s: Signal)
    requires MinInt <= pid <= MaxInt
    requires s.Numbered? ==> MinInt <= s.number <= MaxInt
    ensures ParseKillCommand(KillCommand(pid, s)) == Some((pid, s))
  {
    ParseShowInt(pid);
    if s.Numbered? {
      ParseShowInt(s.number);
      assert ("-" + ShowInt(s.number))[1..] == ShowInt(s.number);
    }
  }

  /** The signals `kill()` and `kill(signal)` send, as the kill runs they
      start: one run naming the process's pid, or none without a pid. */
  lemma KillRunsNamePid(u: Unix, signal: int)
    requires MinInt <= u.pid <= MaxInt && MinInt <= signal <= MaxInt
    ensures forall s :: s in Kill(u) + KillWith(u, signal) ==>
              ParseKillCommand(KillCommand(u.pid, s)) == Some((u.pid, s)) && u.pid != NoPid
    ensures u.pid != NoPid ==>
              && ParseKillCommand(KillCommand(u.pid, Kill(u)[0])) == Some((u.pid, Terminate))
              && ParseKillCommand(KillCommand(u.pid, KillWith(u, signal)[0])) == Some((u.pid, Numbered(signal)))
  {
    forall s | s in Kill(u) + KillWith(u, signal)
      ensures ParseKillCommand(KillCommand(u.pid, s)) == Some((u.pid, s)) && u.pid != NoPid
    {
      KillCommandReadsBack(u.pid, s);
    }
  }

  // ---------------------------------------------------------------------------
  // Stopping

  /** ps still reports a state for the pid. */
  predicate Alive(pid: int, reply: PsReply) {
    ProcessStatus(pid, reply).Ok? && ProcessStatus(pid, reply).value.Some?
  }

  /** The first ps run in `[from, limit)` that does not report the process
      alive, or `limit` when every run does. */
  function FirstNotAlive(pid: int, probe: Probe, from: nat, limit: nat): (j: nat)
    requires from <= limit
    ensures from <= j <= limit
    ensures forall k :: from <= k < j ==> Alive(pid, probe(k))
    ensures j < limit ==> !Alive(pid, probe(j))
    decreases limit - from
  {
    if from == limit then limit
    else if !Alive(pid, probe(from)) then from
    else FirstNotAlive(pid, probe, from + 1, limit)
  }

  lemma FirstNotAliveUnique(pid: int, probe: Probe, from: nat, limit: nat, j: nat)
    requires from <= j <= limit
    requires forall k :: from <= k < j ==> Alive(pid, probe(k))
    requires j < limit ==> !Alive(pid, probe(j))
    ensures FirstNotAlive(pid, probe, from, limit) == j
  {
  }

  /** The wait loop of `stop`: `ticks` rounds fit before the deadline, and
      each round asks `isDead` until it answers yes or throws. */
  function GraceLoop(u: Unix, probe: Probe, k: nat, ticks: nat): (r: Probed)
    requires !u.base.terminated
    ensures var j := FirstNotAlive(u.pid, probe, k, k + ticks);
            && (j == k + ticks ==> r == Probed(u, k + ticks, Ok(false)))
            && (j < k + ticks ==> r == IsDead(u, probe, j))
    decreases ticks
  {
    if ticks == 0 then Probed(u, k, Ok(false))
    else
      var d := IsDead(u, probe, k);
      if d.answer.Err? || d.answer.value then d
      else GraceLoop(d.proc, probe, d.next, ticks - 1)
  }

  /** The state after `stop`, the signals sent, the number of ps runs, and
      whether it returned or threw. */
  datatype Stopped = Stopped(proc: Unix, sent: seq<Signal>, next: nat, outcome: Outcome)

  /** `stop(waitForSeconds)` with `ticks` wait rounds before the deadline:
      a plain kill, the wait, then a forced kill if still alive, and an
      exception if even that did not help. */
  function Stop(u: Unix, ticks: nat, probe: Probe): (r: Stopped)
    ensures u.base.terminated ==> r == Stopped(u, [], 0, Pass)
    ensures r.outcome.Pass? <==> r.proc.base.terminated
    ensures r.proc == u.(base := u.base.(terminated := r.proc.base.terminated))
  {
    var d0 := IsDead(u, probe, 0);
    if d0.answer.Err? then Stopped(d0.proc, [], d0.next, Fail(d0.answer.error))
    else if d0.answer.value then Stopped(d0.proc, [], d0.next, Pass)
    else
      var sent := Kill(d0.proc);
      var g := GraceLoop(d0.proc, probe, d0.next, ticks);
      if g.answer.Err? then Stopped(g.proc, sent, g.next, Fail(g.answer.error))
      else
        var d1 := IsDead(g.proc, probe, g.next);
        if d1.answer.Err? then Stopped(d1.proc, sent, d1.next, Fail(d1.answer.error))
        else
          var sent' := if d1.answer.value then sent else sent + KillWith(d1.proc, ForceKillSignal);
          var d2 := IsDead(d1.proc, probe, d1.next);
          if d2.answer.Err? then Stopped(d2.proc, sent', d2.next, Fail(d2.answer.error))
          else if d2.answer.value then Stopped(d2.proc, sent', d2.next, Pass)
          else Stopped(d2.proc, sent', d2.next, Fail(CannotStopProcess))
  }

  /** The escalation of `stop` stated through the first ps run `j` that finds
      the process not alive. The runs are: run 0, runs 1..ticks in the wait,
      then one before and one after the forced kill. No signal if it is dead
      at run 0; the plain kill alone if it dies within the wait or at the
      check right after it; the forced kill too otherwise. The call fails when
      no run finds it gone, or with the error of the run that failed. */
  function StopSpec(u: Unix, ticks: nat, probe: Probe): Stopped
    requires !u.base.terminated
  {
    var j := FirstNotAlive(u.pid, probe, 0, ticks + 3);
    var outcome := if j == ticks + 3 then Fail(CannotStopProcess)
                   else match ProcessStatus(u.pid, probe(j))
                        case Err(e) => Fail(e)
                        case Ok(_) => Pass;
    var sent := if j == 0 then [] else if j <= ticks + 1 then [Terminate]
                else [Terminate, Numbered(ForceKillSignal)];
    var next := if j == ticks + 3 then ticks + 3 else j + 1;
    Stopped(u.(base := u.base.(terminated := outcome.Pass?)), sent, next, outcome)
  }

  lemma StopDeadAtOnce(u: Unix, ticks: nat, probe: Probe)
    requires !u.base.terminated && !Alive(u.pid, probe(0))
    ensures Stop(u, ticks, probe) == StopSpec(u, ticks, probe)
  {
    FirstNotAliveUnique(u.pid, probe, 0, ticks + 3, 0);
  }

  lemma StopDiesWaiting(u: Unix, ticks: nat, probe: Probe)
    requires !u.base.terminated && Alive(u.pid, probe(0))
    requires FirstNotAlive(u.pid, probe, 1, 1 + ticks) < 1 + ticks
    ensures Stop(u, ticks, probe) == StopSpec(u, ticks, probe)
  {
    var jj := FirstNotAlive(u.pid, probe, 1, 1 + ticks);
    FirstNotAliveUnique(u.pid, probe, 0, ticks + 3, jj);
    assert IsDead(u, probe, 0) == Probed(u, 1, Ok(false));
    assert Kill(u) == [Terminate];
    assert GraceLoop(u, probe, 1, ticks) == IsDead(u, probe, jj);
  }

  lemma StopOutlivesWait(u: Unix, ticks: nat, probe: Probe)
    requires !u.base.terminated && Alive(u.pid, probe(0))
    requires FirstNotAlive(u.pid, probe, 1, 1 + ticks) == 1 + ticks
    ensures Stop(u, ticks, probe) == StopSpec(u, ticks, probe)
  {
    var pid := u.pid;
    assert IsDead(u, probe, 0) == Probed(u, 1, Ok(false));
    assert Kill(u) == [Terminate];
    assert GraceLoop(u, probe, 1, ticks) == Probed(u, ticks + 1, Ok(false));
    if !Alive(pid, probe(ticks + 1)) {
      FirstNotAliveUnique(pid, probe, 0, ticks + 3, ticks + 1);
    } else if !Alive(pid, probe(ticks + 2)) {
      FirstNotAliveUnique(pid, probe, 0, ticks + 3, ticks + 2);
      assert KillWith(u, ForceKillSignal) == [Numbered(ForceKillSignal)];
    } else {
      FirstNotAliveUnique(pid, probe, 0, ticks + 3, ticks + 3);
      assert KillWith(u, ForceKillSignal) == [Numbered(ForceKillSignal)];
    }
  }

  /** `stop` behaves as its escalation describes, for every ps history and
      every deadline. */
  lemma StopEscalation(u: Unix, ticks: nat, probe: Probe)
    requires !u.base.terminated
    ensures Stop(u, ticks, probe) == StopSpec(u, ticks, probe)
  {
    if !Alive(u.pid, probe(0)) {
      StopDeadAtOnce(u, ticks, probe);
    } else if FirstNotAlive(u.pid, probe, 1, 1 + ticks) < 1 + ticks {
      StopDiesWaiting(u, ticks, probe);
    } else {
      StopOutlivesWait(u, ticks, probe);
    }
  }

  /** The forced kill is only ever sent after the plain one, and a process
      without a pid gets no signal at all. */
  lemma StopSignalsInOrder(u: Unix, ticks: nat, probe: Probe)
    ensures var r := Stop(u, ticks, probe);
            r.sent in {[], [Terminate], [Terminate, Numbered(ForceKillSignal)]}
            && (u.pid == NoPid ==> r.sent == [] && r.outcome == Pass)
  {
    if !u.base.terminated {
      StopEscalation(u, ticks, probe);
      if u.pid == NoPid {
        assert !Alive(u.pid, probe(0));
        FirstNotAliveUnique(u.pid, probe, 0, ticks + 3, 0);
      }
    }
  }

  // ---------------------------------------------------------------------------
  // Pid and exit-status files

  /** What successive looks at a file find: its content, or None while it
      does not exist. */
  type FileView = nat -> Option<string>

  predicate NonEmpty(f: Option<string>) {
    f.Some? && |f.value| > 0
  }

  /** The wait loop of `readPid`: the first look that finds a non-empty
      file, or the limit. */
  function PollPidFile(view: FileView, i: nat): (k: nat)
    requires i <= PidPollLimit
    ensures i <= k <= PidPollLimit
    ensures forall j :: i <= j < k ==> !NonEmpty(view(j))
    ensures k < PidPollLimit ==> NonEmpty(view(k))
    decreases PidPollLimit - i
  {
    if i == PidPollLimit then PidPollLimit
    else if NonEmpty(view(i)) then i
    else PollPidFile(view, i + 1)
  }

  lemma PollPidFileUnique(view: FileView, i: nat, k: nat)
    requires i <= k <= PidPollLimit
    requires forall j :: i <= j < k ==> !NonEmpty(view(j))
    requires k < PidPollLimit ==> NonEmpty(view(k))
    ensures PollPidFile(view, i) == k
  {
  }

  /** The read after the wait: a missing file, or one with no line, is an
      illegal state; a first line that is not a number a number-format
      error. */
  function ReadPidFrom(file: Option<string>): (r: Result<int>)
    ensures r.Ok? ==> MinInt <= r.value <= MaxInt
    ensures r == Err(IllegalState) <==> file.None? || FirstLine(file.value).None?
    ensures r.Ok? ==> file.Some? && FirstLine(file.value).Some?
                      && ParseInt(FirstLine(file.value).value) == Some(r.value)
    ensures file.Some? && FirstLine(file.value).Some? ==>
              (r == Err(NumberFormat) <==> ParseInt(FirstLine(file.value).value).None?)
    ensures r.Err? ==> r.error == IllegalState || r.error == NumberFormat
  {
    match file
    case None => Err(IllegalState)
    case Some(content) =>
      match FirstLine(content)
      case None => Err(IllegalState)
      case Some(line) =>
        match ParseInt(line)
        case None => Err(NumberFormat)
        case Some(v) => Ok(v)
  }

  /** `readPid`: the file is read as it is at the look where the wait ended. */
  function ReadPid(view: FileView): (r: Result<int>)
    ensures r.Ok? ==> MinInt <= r.value <= MaxInt
    ensures r.Err? ==> r.error == IllegalState || r.error == NumberFormat
    ensures var k := PollPidFile(view, 0);
            && (r == Err(IllegalState) <==> view(k).None? || FirstLine(view(k).value).None?)
            && (r.Ok? ==> view(k).Some? && FirstLine(view(k).value).Some?
                          && ParseInt(FirstLine(view(k).value).value) == Some(r.value))
            && (view(k).Some? && FirstLine(view(k).value).Some? ==>
                  (r == Err(NumberFormat) <==> ParseInt(FirstLine(view(k).value).value).None?))
  {
    ReadPidFrom(view(PollPidFile(view, 0)))
  }

  /** A pid file still missing, or still empty, when the looks run out is an
      illegal state. */
  lemma ReadPidNeverWritten(view: FileView)
    requires forall j :: 0 <= j < PidPollLimit ==> !NonEmpty(view(j))
    ensures view(PidPollLimit).None? ==> ReadPid(view) == Err(IllegalState)
    ensures view(PidPollLimit) == Some("") ==> ReadPid(view) == Err(IllegalState)
  {
    PollPidFileUnique(view, 0, PidPollLimit);
  }

  /** What the script's `echo $x > file` leaves in a file. */
  function EchoText(n: int): string {
    ShowInt(n) + "\n"
  }

  /** The echo line decodes to the number echoed. */
  lemma EchoTextReadsBack(n: int)
    requires MinInt <= n <= MaxInt
    ensures FirstLine(EchoText(n)) == Some(ShowInt(n))
    ensures ParseInt(ShowInt(n)) == Some(n)
  {
    ShowIntNoLineBreak(n);
    FirstLineOf(ShowInt(n), "");
    assert ShowInt(n) + "\n" + "" == EchoText(n);
    ParseShowInt(n);
  }

  /** A pid the script writes within the wait is the pid read. */
  lemma ReadPidOfEcho(view: FileView, k: nat, n: int)
    requires k <= PidPollLimit && MinInt <= n <= MaxInt
    requires forall j :: 0 <= j < k ==> !NonEmpty(view(j))
    requires forall j :: k <= j ==> view(j) == Some(EchoText(n))
    ensures ReadPid(view) == Ok(n)
  {
    PollPidFileUnique(view, 0, k);
    EchoTextReadsBack(n);
    assert view(k) == Some(EchoText(n));
    assert ReadPidFrom(view(k)) == Ok(n);
  }

  /** A value and the state after the call that produced it. */
  datatype Valued = Valued(proc: Unix, result: Result<int>)

  /** `getExitValue`. `exitFile` is the content of `exit.value`, None when it
      does not exist. A parsed status is cached in the process. */
  function GetExitValue(u: Unix, exitFile: Option<string>): (r: Valued)
    ensures u.pid == NoPid || u.base.terminated ==> r == Valued(u, Ok(u.exitValue))
    ensures u.pid != NoPid && !u.base.terminated ==>
              && (exitFile.None? ==> r == Valued(u, Err(IllegalThreadState)))
              && (exitFile.Some? ==>
                    (r.result.Ok? <==> FirstLine(exitFile.value).Some?
                                       && ParseInt(FirstLine(exitFile.value).value).Some?))
    ensures r.result.Ok? ==> r.proc == u.(exitValue := r.result.value)
    ensures r.result.Err? ==> r.proc == u && (r.result.error == IllegalThreadState || r.result.error == IllegalState)
    ensures u.pid != NoPid && !u.base.terminated && r.result.Ok? ==>
              exitFile.Some? && FirstLine(exitFile.value).Some?
              && ParseInt(FirstLine(exitFile.value).value) == Some(r.result.value)
  {
    if u.pid == NoPid || u.base.terminated then Valued(u, Ok(u.exitValue))
    else
      match exitFile
      case None => Valued(u, Err(IllegalThreadState))
      case Some(content) =>
        var parsed := match FirstLine(content) case None => None case Some(line) => ParseInt(line);
        match parsed
        case None => Valued(u, Err(IllegalState))
        case Some(v) => Valued(u.(exitValue := v), Ok(v))
  }

  /** The status the script echoes is the exit value, and it is cached: once
      the process is marked terminated the file is no longer consulted. */
  lemma ExitValueOfEcho(u: Unix, status: int, later: Option<string>)
    requires u.pid != NoPid && !u.base.terminated && MinInt <= status <= MaxInt
    ensures var r := GetExitValue(u, Some(EchoText(status)));
            && r == Valued(u.(exitValue := status), Ok(status))
            && GetExitValue(r.proc.(base := r.proc.base.(terminated := true)), later).result == Ok(status)
  {
    EchoTextReadsBack(status);
  }

  /** A process never started reports -1 without looking for a file. */
  lemma NewExitValue(id: M.Id, exitFile: Option<string>)
    ensures GetExitValue(New(id), exitFile) == Valued(New(id), Ok(-1))
  {
  }

  /** The end of the `waitFor(int)` loop: the wrapper became inactive (and the
      index of the next ps run), or ps failed. */
  datatype WaitEnd = Inactive(next: nat) | ProbeFailed(error: Error)

  /** `while (isActive(pid)) sleep`, with at most `fuel` further rounds;
      None while the process is still active after them. */
  function WaitWhileActive(pid: int, probe: Probe, k: nat, fuel: nat): (r: Option<WaitEnd>)
    ensures r.Some? && r.value.ProbeFailed? ==> r.value.error == IllegalState
    decreases fuel
  {
    match IsActive(pid, probe(k))
    case Err(e) => Some(ProbeFailed(e))
    case Ok(active) =>
      if !active then Some(Inactive(k + 1))
      else if fuel == 0 then None
      else WaitWhileActive(pid, probe, k + 1, fuel - 1)
  }

  /** The loop stops at the first ps run that finds the wrapper inactive,
      every earlier run having found it active; with no answer, every run
      allowed found it active. */
  lemma {:induction false} WaitWhileActiveStops(pid: int, probe: Probe, k: nat, fuel: nat)
    ensures var r := WaitWhileActive(pid, probe, k, fuel);
            r.Some? && r.value.Inactive? ==>
              && k < r.value.next <= k + fuel + 1
              && IsActive(pid, probe(r.value.next - 1)) == Ok(false)
              && forall j :: k <= j < r.value.next - 1 ==> IsActive(pid, probe(j)) == Ok(true)
    ensures WaitWhileActive(pid, probe, k, fuel).None? ==>
              forall j :: k <= j <= k + fuel ==> IsActive(pid, probe(j)) == Ok(true)
    decreases fuel
  {
    if IsActive(pid, probe(k)) == Ok(true) && fuel > 0 {
      WaitWhileActiveStops(pid, probe, k + 1, fuel - 1);
    }
  }

  /** A failed end comes from a ps run that failed, every earlier run having
      found the wrapper active. */
  lemma {:induction false} WaitWhileActiveFails(pid: int, probe: Probe, k: nat, fuel: nat)
    ensures var r := WaitWhileActive(pid, probe, k, fuel);
            r.Some? && r.value.ProbeFailed? ==>
              exists j :: k <= j <= k + fuel && IsActive(pid, probe(j)).Err?
                          && forall i :: k <= i < j ==> IsActive(pid, probe(i)) == Ok(true)
    decreases fuel
  {
    if IsActive(pid, probe(k)) == Ok(true) && fuel > 0 {
      WaitWhileActiveFails(pid, probe, k + 1, fuel - 1);
    }
  }

  /** More rounds never change an answer already reached. */
  lemma {:induction false} WaitWhileActiveFuel(pid: int, probe: Probe, k: nat, fuel: nat, more: nat)
    requires WaitWhileActive(pid, probe, k, fuel).Some?
    ensures WaitWhileActive(pid, probe, k, fuel + more) == WaitWhileActive(pid, probe, k, fuel)
    decreases fuel
  {
    match IsActive(pid, probe(k))
    case Err(_) =>
    case Ok(active) =>
      if active && fuel > 0 {
        WaitWhileActiveFuel(pid, probe, k + 1, fuel - 1, more);
      }
  }

  /** `waitFor()`: a terminated process answers from the cache; otherwise the
      wrapper sub-shell is waited for and the exit value then read, with
      `exitFile` the content of `exit.value` at that moment. */
  function WaitFor(u: Unix, probe: Probe, fuel: nat, exitFile: Option<string>): (r: Option<Valued>)
    ensures u.base.terminated ==> r == Some(GetExitValue(u, exitFile))
    ensures u.wrapperPid == NoPid ==> r == Some(GetExitValue(u, exitFile))
    ensures r.Some? && r.value != GetExitValue(u, exitFile) ==> r.value == Valued(u, Err(IllegalState))
    ensures !u.base.terminated && r.None? ==>
              forall j :: 0 <= j <= fuel ==> IsActive(u.wrapperPid, probe(j)) == Ok(true)
    ensures !u.base.terminated && r.Some? ==>
              exists j :: 0 <= j <= fuel && (forall i :: 0 <= i < j ==> IsActive(u.wrapperPid, probe(i)) == Ok(true))
                          && ((IsActive(u.wrapperPid, probe(j)) == Ok(false) && r.value == GetExitValue(u, exitFile))
                              || (IsActive(u.wrapperPid, probe(j)).Err? && r.value == Valued(u, Err(IllegalState))))
  {
    if u.base.terminated then Some(GetExitValue(u, exitFile))
    else
      WaitWhileActiveStops(u.wrapperPid, probe, 0, fuel);
      WaitWhileActiveFails(u.wrapperPid, probe, 0, fuel);
      match WaitWhileActive(u.wrapperPid, probe, 0, fuel)
      case None => None
      case Some(ProbeFailed(e)) => Some(Valued(u, Err(e)))
      case Some(Inactive(next)) =>
        assert IsActive(u.wrapperPid, probe(next - 1)) == Ok(false);
        Some(GetExitValue(u, exitFile))
  }

  /** Waiting longer changes nothing once `waitFor` has returned. */
  lemma WaitForFuel(u: Unix, probe: Probe, fuel: nat, more: nat, exitFile: Option<string>)
    requires WaitFor(u, probe, fuel, exitFile).Some?
    ensures WaitFor(u, probe, fuel + more, exitFile) == WaitFor(u, probe, fuel, exitFile)
  {
    if !u.base.terminated {
      WaitWhileActiveFuel(u.wrapperPid, probe, 0, fuel, more);
    }
  }

  // ---------------------------------------------------------------------------
  // Starting, restarting, destroying

  /** The state after `start` and whether it returned or threw. */
  datatype Started = Started(proc: Unix, outcome: Outcome)

  /** The two `readPid` calls closing `start`. */
  function ReadPids(u: Unix, wrapperView: FileView, pidView: FileView): (r: Started)
    ensures r.proc.base == u.base
    ensures r.outcome.Pass? <==> ReadPid(wrapperView).Ok? && ReadPid(pidView).Ok?
    ensures r.outcome.Pass? ==> r.proc == u.(wrapperPid := ReadPid(wrapperView).value, pid := ReadPid(pidView).value)
    ensures ReadPid(wrapperView).Err? ==> r == Started(u, Fail(ReadPid(wrapperView).error))
    ensures ReadPid(wrapperView).Ok? && ReadPid(pidView).Err? ==>
              r == Started(u.(wrapperPid := ReadPid(wrapperView).value), Fail(ReadPid(pidView).error))
  {
    match ReadPid(wrapperView)
    case Err(e) => Started(u, Fail(e))
    case Ok(w) =>
      var u1 := u.(wrapperPid := w);
      match ReadPid(pidView)
      case Err(e) => Started(u1, Fail(e))
      case Ok(p) => Started(u1.(pid := p), Pass)
  }

  /** `start` as written: after the base `start` returns normally, for
      whatever reason, the pid files are read. `probe(0)` answers this
      method's `isActive()`, `probe(1)` the base's. */
  function StartAsWritten(u: Unix, probe: Probe, ready: nat -> bool, wrapperView: FileView, pidView: FileView): (r: Started)
    ensures IsActive(u.pid, probe(0)) == Ok(true) ==> r == Started(u, Pass)
    ensures IsActive(u.pid, probe(0)).Err? ==> r == Started(u, Fail(IsActive(u.pid, probe(0)).error))
    ensures IsActive(u.pid, probe(0)) == Ok(false) && IsActive(u.pid, probe(1)).Err? ==>
              r == Started(u, Fail(IsActive(u.pid, probe(1)).error))
    ensures IsActive(u.pid, probe(0)) == Ok(false) && IsActive(u.pid, probe(1)) == Ok(true) ==>
              r == ReadPids(u, wrapperView, pidView)
    ensures IsActive(u.pid, probe(0)) == Ok(false) && IsActive(u.pid, probe(1)) == Ok(false) ==>
              var b := M.Start(u.base, false, ready);
              b.outcome.Ok? ==> r == ReadPids(u.(base := b.proc), wrapperView, pidView)
  {
    match IsActive(u.pid, probe(0))
    case Err(e) => Started(u, Fail(e))
    case Ok(true) => Started(u, Pass)
    case Ok(false) =>
      match IsActive(u.pid, probe(1))
      case Err(e) => Started(u, Fail(e))
      case Ok(active) =>
        var b := M.Start(u.base, active, ready);
        var u1 := u.(base := b.proc);
        if b.outcome.Err? then Started(u1, Fail(b.outcome.error))
        else ReadPids(u1, wrapperView, pidView)
  }

  /** `start` as intended: an empty command launches nothing, so there are
      no pid files to wait for and the call returns like the base does. */
  function Start(u: Unix, probe: Probe, ready: nat -> bool, wrapperView: FileView, pidView: FileView): (r: Started)
    ensures IsActive(u.pid, probe(0)) == Ok(true) ==> r == Started(u, Pass)
    ensures IsActive(u.pid, probe(0)).Err? ==> r == Started(u, Fail(IsActive(u.pid, probe(0)).error))
    ensures IsActive(u.pid, probe(0)) == Ok(false) && IsActive(u.pid, probe(1)).Err? ==>
              r == Started(u, Fail(IsActive(u.pid, probe(1)).error))
    ensures IsActive(u.pid, probe(0)) == Ok(false) && IsActive(u.pid, probe(1)) == Ok(true) ==>
              r == ReadPids(u, wrapperView, pidView)
    ensures r.proc.base.id == u.base.id && r.proc.base.directory == u.base.directory
    ensures r.proc.base.environment == u.base.environment
    ensures u.base.command.Some? && u.base.command.value != [] ==> r.proc.base.command == u.base.command
    ensures IsActive(u.pid, probe(0)) == Ok(false) && IsActive(u.pid, probe(1)) == Ok(false) ==>
              var b := M.Start(u.base, false, ready);
              && r.proc.base == b.proc
              && (b.outcome == Ok(M.NothingToRun) ==> r == Started(u.(base := b.proc), Pass))
              && (b.outcome == Ok(M.Launched) ==> r == ReadPids(u.(base := b.proc), wrapperView, pidView))
              && (b.outcome.Err? ==> r == Started(u.(base := b.proc), Fail(b.outcome.error)))
  {
    match IsActive(u.pid, probe(0))
    case Err(e) => Started(u, Fail(e))
    case Ok(true) => Started(u, Pass)
    case Ok(false) =>
      match IsActive(u.pid, probe(1))
      case Err(e) => Started(u, Fail(e))
      case Ok(active) =>
        var b := M.Start(u.base, active, ready);
        var u1 := u.(base := b.proc);
        if b.outcome.Err? then Started(u1, Fail(b.outcome.error))
        else if b.outcome.value == M.NothingToRun then Started(u1, Pass)
        else ReadPids(u1, wrapperView, pidView)
  }

  /** A launched process ends up with the pids the script recorded. */
  lemma StartRecordsPids(u: Unix, probe: Probe, ready: nat -> bool, wrapperView: FileView, pidView: FileView,
                         wrapper: int, pid: int)
    requires IsActive(u.pid, probe(0)) == Ok(false) && IsActive(u.pid, probe(1)) == Ok(false)
    requires u.base.command.Some? && u.base.command.value != [] && u.base.directory.Some?
    requires exists k :: 0 <= k <= M.StartPollLimit + 1 && ready(k)
    requires MinInt <= wrapper <= MaxInt && MinInt <= pid <= MaxInt
    requires forall j :: wrapperView(j) == Some(EchoText(wrapper))
    requires forall j :: pidView(j) == Some(EchoText(pid))
    ensures Start(u, probe, ready, wrapperView, pidView)
         == Started(u.(base := u.base.(terminated := false), wrapperPid := wrapper, pid := pid), Pass)
  {
    ReadPidOfEcho(wrapperView, 0, wrapper);
    ReadPidOfEcho(pidView, 0, pid);
  }

  /** The empty-command start: as written it throws once the wrapper pid file
      fails to appear; as intended it returns normally and leaves an empty
      command. */
  lemma EmptyCommandStart(id: M.Id, home: M.Path, probe: Probe, ready: nat -> bool, pidView: FileView)
    ensures var u := New(id).(base := M.New(id).(directory := Some(home)));
            var noFile: FileView := _ => None;
            && StartAsWritten(u, probe, ready, noFile, pidView) == Started(u, Fail(IllegalState))
            && Start(u, probe, ready, noFile, pidView) == Started(u, Pass)
  {
    var noFile: FileView := _ => None;
    assert !NonEmpty(noFile(PidPollLimit));
  }

  /** The outcome of `restart`: the stop, and the start if the stop returned. */
  datatype Restarted = Restarted(stopped: Stopped, started: Option<Started>)

  /** `restart(waitForSeconds)`: `stop()` with the default timeout, then
      `start()` on the remaining ps runs. `ticksFor(s)` is how many wait
      rounds fit in `s` seconds. */
  function Restart(u: Unix, waitForSeconds: int, ticksFor: int -> nat, probe: Probe,
                   ready: nat -> bool, wrapperView: FileView, pidView: FileView): (r: Restarted)
    ensures r.stopped == Stop(u, ticksFor(M.DefaultKillTimeoutSeconds), probe)
    ensures r.stopped.proc.base.id == u.base.id
    ensures r.started.Some? <==> r.stopped.outcome.Pass?
    ensures r.started.Some? ==>
              r.started.value == Start(r.stopped.proc, Shift(probe, r.stopped.next), ready, wrapperView, pidView)
    ensures r.started.Some? ==> r.started.value.proc.base.id == u.base.id
  {
    var s := Stop(u, ticksFor(M.DefaultKillTimeoutSeconds), probe);
    if s.outcome.Fail? then Restarted(s, None)
    else Restarted(s, Some(Start(s.proc, Shift(probe, s.next), ready, wrapperView, pidView)))
  }

  /** The wait given to `restart` is not used: any two waits restart alike. */
  lemma RestartIgnoresWait(u: Unix, a: int, b: int, ticksFor: int -> nat, probe: Probe,
                           ready: nat -> bool, wrapperView: FileView, pidView: FileView)
    ensures Restart(u, a, ticksFor, probe, ready, wrapperView, pidView)
         == Restart(u, b, ticksFor, probe, ready, wrapperView, pidView)
  {
  }

  /** A restart whose stop returns launches the process again: once ps finds
      it inactive, the command runs and the new pids are recorded. */
  lemma RestartRelaunches(u: Unix, waitForSeconds: int, ticksFor: int -> nat, probe: Probe,
                          ready: nat -> bool, wrapperView: FileView, pidView: FileView, wrapper: int, pid: int)
    requires var s := Stop(u, ticksFor(M.DefaultKillTimeoutSeconds), probe);
             && s.outcome.Pass?
             && IsActive(u.pid, probe(s.next)) == Ok(false) && IsActive(u.pid, probe(s.next + 1)) == Ok(false)
    requires u.base.command.Some? && u.base.command.value != [] && u.base.directory.Some?
    requires exists k :: 0 <= k <= M.StartPollLimit + 1 && ready(k)
    requires MinInt <= wrapper <= MaxInt && MinInt <= pid <= MaxInt
    requires forall j :: wrapperView(j) == Some(EchoText(wrapper))
    requires forall j :: pidView(j) == Some(EchoText(pid))
    ensures var r := Restart(u, waitForSeconds, ticksFor, probe, ready, wrapperView, pidView);
            && r.stopped.sent <= [Terminate, Numbered(ForceKillSignal)]
            && r.started == Some(Started(u.(base := u.base.(terminated := false), wrapperPid := wrapper, pid := pid), Pass))
  {
    var s := Stop(u, ticksFor(M.DefaultKillTimeoutSeconds), probe);
    StopSignalsInOrder(u, ticksFor(M.DefaultKillTimeoutSeconds), probe);
    var shifted := Shift(probe, s.next);
    assert shifted(0) == probe(s.next) && shifted(1) == probe(s.next + 1);
    assert s.proc.pid == u.pid;
    StartRecordsPids(s.proc, shifted, ready, wrapperView, pidView, wrapper, pid);
  }

  /** The outcome of `destroy`: the stop, and the directory removed. */
  datatype Destroyed = Destroyed(stopped: Stopped, removed: Option<M.Path>)

  /** `destroy`: `stop()`, then the process's home directory is removed. */
  function Destroy(u: Unix, ticksFor: int -> nat, probe: Probe): (r: Destroyed)
    ensures r.removed.Some? ==> r.stopped.outcome.Pass? && r.removed == u.base.directory
    ensures r.stopped.outcome.Pass? ==> r.removed == u.base.directory
    ensures r.stopped == Stop(u, ticksFor(M.DefaultKillTimeoutSeconds), probe)
    ensures r.stopped.outcome.Pass? <==> r.stopped.proc.base.terminated
  {
    var s := Stop(u, ticksFor(M.DefaultKillTimeoutSeconds), probe);
    if s.outcome.Fail? then Destroyed(s, None) else Destroyed(s, s.proc.base.directory)
  }

  /** Destroying a process already known to be terminated sends no signal,
      runs no ps, and removes its home directory. */
  lemma DestroyTerminated(u: Unix, ticksFor: int -> nat, probe: Probe)
    requires u.base.terminated
    ensures Destroy(u, ticksFor, probe) == Destroyed(Stopped(u, [], 0, Pass), u.base.directory)
  {
  }

  /** `acquireFromHome`: take over a process started earlier from `home`.
      Missing pid files (an illegal state) mean it was never started and are
      ignored; an unreadable number is not. */
  function AcquireFromHome(u: Unix, home: M.Path, wrapperView: FileView, pidView: FileView): (r: Result<Unix>)
    ensures r.Err? ==> r.error == NumberFormat
    ensures r.Ok? ==> r.value.base == M.SetDirectory(u.base, Some(home)) && r.value.exitValue == u.exitValue
    ensures ReadPid(wrapperView) == Err(IllegalState) ==> r == Ok(u.(base := M.SetDirectory(u.base, Some(home))))
    ensures ReadPid(wrapperView) == Err(NumberFormat) ==> r == Err(NumberFormat)
    ensures ReadPid(wrapperView).Ok? && ReadPid(pidView) == Err(IllegalState) ==>
              r == Ok(u.(base := M.SetDirectory(u.base, Some(home)), wrapperPid := ReadPid(wrapperView).value))
    ensures ReadPid(wrapperView).Ok? && ReadPid(pidView) == Err(NumberFormat) ==> r == Err(NumberFormat)
    ensures ReadPid(wrapperView).Ok? && ReadPid(pidView).Ok? ==>
              r == Ok(u.(base := M.SetDirectory(u.base, Some(home)),
                         wrapperPid := ReadPid(wrapperView).value, pid := ReadPid(pidView).value))
  {
    var u0 := u.(base := M.SetDirectory(u.base, Some(home)));
    match ReadPid(wrapperView)
    case Err(e) => if e == IllegalState then Ok(u0) else Err(e)
    case Ok(w) =>
      var u1 := u0.(wrapperPid := w);
      match ReadPid(pidView)
      case Err(e) => if e == IllegalState then Ok(u1) else Err(e)
      case Ok(p) => Ok(u1.(pid := p))
  }

  /** Acquiring a home whose script has run recovers both pids. */
  lemma AcquireAfterLaunch(u: Unix, home: M.Path, wrapperView: FileView, pidView: FileView,
                           wrapper: int, pid: int)
    requires MinInt <= wrapper <= MaxInt && MinInt <= pid <= MaxInt
    requires forall j :: wrapperView(j) == Some(EchoText(wrapper))
    requires forall j :: pidView(j) == Some(EchoText(pid))
    ensures AcquireFromHome(u, home, wrapperView, pidView)
         == Ok(u.(base := M.SetDirectory(u.base, Some(home)), wrapperPid := wrapper, pid := pid))
  {
    ReadPidOfEcho(wrapperView, 0, wrapper);
    ReadPidOfEcho(pidView, 0, pid);
  }

  /** `clone`: the base clone under a fresh id; pids and exit value start
      over. */
  function Clone(u: Unix, freshId: M.Id): (r: Unix)
    ensures r.base.id == freshId && !r.base.terminated
    ensures M.ConfigOf(r.base) == M.ConfigOf(u.base)
    ensures r.pid == NoPid && r.wrapperPid == NoPid && r.exitValue == -1
  {
    Unix(M.Clone(u.base, freshId), NoPid, NoPid, -1)
  }
}
